=== FILE: README.md ===
# Resumable utility-bill scraper: job-control model

The scraper walks a list of consumer ids (CIDs) read from an input workbook. For each CID it
fetches the monthly bill amounts from the utility's site. Results are kept in two in-memory
collections:

- `output_data`: CID → month → amount;
- `not_scraped`: a set of CIDs whose fetch failed.

Three files persist the job, so that a run can be stopped and resumed:

- the output workbook, one row per (CID, month, amount);
- a JSON list of failed CIDs;
- `status.json`, holding `last_processed`, `total_processed`, `start_time` and `last_updated`.

A Flask front end starts the worker thread and reports its state. The worker polls two flags,
`should_pause` and `should_stop`.

This project models that job-control engine in Dafny:

- **`Common`**: CIDs, months and amounts.
- **`Progress`**: the status record, its defaults when the file is missing, empty or
  unreadable, the start-time stamp, and the per-item checkpoint.
- **`Retry`**: `process_cid` as a bounded retry loop (`MAX_RETRIES` = 3) over an attempt
  oracle. `fetch(cid, k)` is the outcome of the k-th attempt for `cid`.
- **`Pause`**: `check_pause` as a loop over the flag values it reads while waiting.
- **`Store`**: the durable files.
  - `save_data` flattens the map into rows and writes the failed list as a union with the file.
  - The class `Disk` holds the three files.
  - The reload of the workbook is modelled as written and as evidently intended (see Findings).
    The worker runs the intended reload. Both reloads find the same CIDs
    (`Store.ReloadAsWrittenSameKeys`). A run started from any month map over the reloaded CIDs
    fetches, counts, checkpoints and fails alike (`Runs.WorkerRunReadsOnlyReloadedCids`).
    The as-written map holds column names rather than months, so it is outside that lemma's
    type; that it behaves alike rests on a turn reading only membership (`Runner.StepAgrees`).
- **`Runner`**: a pure specification of the worker loop (`Step`, `RunFrom`, `WorkerRun`), with
  lemmas about whole runs: progress, idempotent skipping, exactly-one-collection, checkpoint,
  and how the loop halts.
- **`Worker`**: `scraping_worker` as an imperative method over a `Disk` and the control
  flags. It is proved to leave exactly the state `Runner.WorkerRun` computes.
- **`Runs`**: whole-run guarantees (each CID from the stored offset is visited and fetched
  only if new), resuming from the files a previous run left behind, and concrete runs (all
  succeed, one fails, stop then resume).
- **`Crash`**: a worker that dies at a loop head between two periodic saves. As written,
  `status.json` is rewritten after every fetched CID while the workbook and the failed file
  are written only every 10 indices, so a run resumed from the files left behind starts past
  CIDs whose results were never saved (see Findings). The corrected variant writes the status
  record together with the data and is proved to lose no recorded CID.
- **`Control`**: the flags and the worker thread as a class, the start route's guard, and the
  status route's run state.

The environment is passed in as parameters:

- the values of the flags the worker reads at each index, and the flag values the pause loop
  polls;
- the clock reading at each index;
- the attempt oracle;
- whether the browser starts;
- the CID list (absent when the input workbook cannot be read).

The status record says the run finished only if the last index was actually fetched: skipped
items do not update it. When every CID after the checkpoint was already done, `last_processed`
stays below the list length (`Runs.SkippedTailLeavesCheckpointShort`). The model follows the
code here.

## Model

| member | source | states |
|---|---|---|
| `Progress.LoadStatus` | single_threading-Code/scraper.py:620-628 | the stored record when the file is present, non-empty and readable; otherwise offset 0, total 0, no start time |
| `Progress.StampStartTime` | single_threading-Code/scraper.py:855-857 | the result always has a start time; an existing stamp is kept unchanged; the other fields are untouched |
| `Progress.StampStartTimeIdempotent` | single_threading-Code/scraper.py:855-857 | stamping a second time, at any later instant, changes nothing |
| `Progress.Checkpoint` | single_threading-Code/scraper.py:891-896 | the offset becomes the given index, the total becomes the success count, the start time is kept |
| `Retry.RetryFrom` | single_threading-Code/scraper.py:741-816 | the retry loop entered after k failures; a failure it reports is the last attempt's error |
| `Retry.RetryResult` | single_threading-Code/scraper.py:739-816 | `process_cid` from the first attempt: a first-attempt success is returned as is; a failure is the third attempt's error |
| `Retry.RetryFromCharacterised` | single_threading-Code/scraper.py:739-816 | from attempt k, the loop succeeds iff a remaining attempt succeeds, with the first success's map; otherwise the error is the last attempt's |
| `Retry.RetryResultCharacterised` | single_threading-Code/scraper.py:739-816 | `process_cid` succeeds iff one of its 3 attempts does, returns the first success, and raises the third failure's error |
| `Retry.ProcessCid` | single_threading-Code/scraper.py:739-816 | the retry loop agrees with the specification; 1 to 3 attempts; every attempt before the last failed; failure only after exactly 3 |
| `Pause.WaitLoop` | single_threading-Code/scraper.py:705-709 | the `while should_pause` loop over the polls: it resumes only on a poll that found the pause cleared, and stops only on one that found both flags set |
| `Pause.PauseWait` | single_threading-Code/scraper.py:700-711 | `check_pause` from its first read of `should_pause`: only a paused worker is held or stopped |
| `Pause.WaitLoopCharacterised` | single_threading-Code/scraper.py:700-711 | the wait resumes at the first poll finding the pause cleared, stops at the first finding stop set, and is still waiting iff no poll did either |
| `Pause.StopIffObservedWhilePaused` | single_threading-Code/scraper.py:700-711 | `check_pause` returns True exactly when paused and a poll that still found the pause set read the stop flag |
| `Pause.CheckPause` | single_threading-Code/scraper.py:700-711 | returns False at once when not paused; otherwise agrees with the wait specification and reports the poll that ended it |
| `Store.AppendHistory` | single_threading-Code/scraper.py:671-676 | appends one row per month of the CID, carrying its amount, keeping earlier rows and no pair twice |
| `Store.FlattenRows` | single_threading-Code/scraper.py:669-676 | one row per (CID, month) pair with the map's amount, no other rows, no pair twice; row count is the sum of the inner map sizes |
| `Store.LoadFailed` | single_threading-Code/scraper.py:652-661 | a readable failed file gives its CIDs; a missing, empty or unreadable one gives none |
| `Store.MergeFailed` | single_threading-Code/scraper.py:683-694 | the file is untouched when `not_scraped` is empty; otherwise it becomes the union of `not_scraped` and the readable on-disk list |
| `Store.MergeAll` | single_threading-Code/scraper.py:683-694 | the failed file after a sequence of saves is either untouched or a readable list |
| `Store.FailuresArePermanent` | single_threading-Code/scraper.py:683-694 | over any sequence of flushes, no readable failure and no flushed failure is ever dropped |
| `Store.UnreadableFailedFileIsReplaced` | single_threading-Code/scraper.py:683-694 | an unreadable failed file is overwritten with just the current failures |
| `Store.Reload` | single_threading-Code/scraper.py:835-844 | the corrected reload (rows grouped by CID) holds exactly the CIDs that have a row |
| `Store.ReloadDomains` | single_threading-Code/scraper.py:835-844 | the corrected reload has a CID for each CID with a row, mapping exactly the months with a row |
| `Store.ReloadLastRowWins` | single_threading-Code/scraper.py:835-844 | in the corrected reload, the amount of a pair is that of its last row |
| `Store.ReloadFlattened` | single_threading-Code/scraper.py:835-844 | reading back a flush of `m` restores `m`, except CIDs scraped with no months, which leave no row |
| `Store.ReloadedHistory` | single_threading-Code/scraper.py:835-844 | a CID with at least one month reloads to exactly its month map |
| `Store.ReloadAsWritten` | single_threading-Code/scraper.py:835-844 | the reload as written, every non-CID column taken for a month: it holds exactly the CIDs that have a row |
| `Store.ReloadAsWrittenSameKeys` | single_threading-Code/scraper.py:835-844 | the reload as written and the corrected one hold the same CIDs |
| `Store.ReloadAsWrittenKeys` | single_threading-Code/scraper.py:835-844 | as written, every reloaded CID maps exactly the column names "Month" and "Amount" |
| `Store.ReloadAsWrittenLosesMonths` | single_threading-Code/scraper.py:835-844 | a two-month CID flushed and reloaded as written keeps only the last row's month and amount |
| `Store.Disk.SaveStatus` | single_threading-Code/scraper.py:630-636 | the status file holds the record |
| `Store.Disk.SaveData` | single_threading-Code/scraper.py:665-698 | the workbook is a flattening of the output map with one row per pair; the failed file is merged as `MergeFailed` says |
| `Runner.Flush` | single_threading-Code/scraper.py:899-904 | a save records the whole output map and merges the failures into the failed file; nothing else changes |
| `Runner.Record` | single_threading-Code/scraper.py:877-888 | the CID lands in one of the two collections and exactly one counter moves; no other field changes |
| `Runner.Visit` | single_threading-Code/scraper.py:877-901 | after fetching index i the CID is in a collection, i is logged as fetched, and the status holds offset i + 1 and the success count |
| `Runner.Step` | single_threading-Code/scraper.py:862-901 | a turn either halts at index i changing nothing else, or leaves the CID at i in one of the collections |
| `Runner.RunFrom` | single_threading-Code/scraper.py:861-901 | the loop from index i halts, if at all, at an index in [i, list length) |
| `Runner.Begin` | single_threading-Code/scraper.py:827-857 | the loop starts from the reloaded workbook and failed list, with counters from the status record and the failed set, and the start time stamped |
| `Runner.Finish` | single_threading-Code/scraper.py:903-904 | the final save records the whole output map unless the worker is still waiting in the pause; only the saved files change |
| `Runner.WorkerRun` | single_threading-Code/scraper.py:818-904 | a whole run halts, if at all, at an index from the stored offset on, and unless still paused the workbook holds its final map |
| `Runner.SkipChangesNothing` | single_threading-Code/scraper.py:874-875 | a CID already scraped or failed is not fetched, and no counter, status or flush changes |
| `Runner.StopFlagEndsBeforeFetch` | single_threading-Code/scraper.py:862-865 | a stop flag read at the loop head ends the loop before the current CID is fetched |
| `Runner.VisitRecordsOnce` | single_threading-Code/scraper.py:877-901 | a fetched CID goes into exactly one collection with its counter; the status becomes the checkpoint for index i + 1; saves happen every 10 indices |
| `Runner.StepCases` | single_threading-Code/scraper.py:861-901 | one turn halts changing nothing else, skips changing nothing, or fetches a CID that was in neither collection |
| `Runner.RunGrows` | single_threading-Code/scraper.py:877-888 | neither collection loses or changes an entry; each counter grows by its collection's growth; disjoint collections stay disjoint |
| `Runner.RunFetchLog` | single_threading-Code/scraper.py:852-862 | the indices fetched lie in [start offset, list length) and strictly increase |
| `Runner.RunFetchesOnlyNew` | single_threading-Code/scraper.py:873-888 | every fetched CID was in neither collection when the run began, is fetched once, and ends in a collection; each fetch moves one counter (`RunFetchesEveryNewCid` gives the converse) |
| `Runner.RunCheckpoint` | single_threading-Code/scraper.py:891-896 | the offset never decreases and the start time is kept; after the last fetched index k the record holds k + 1 and the success count; with no fetch it is unchanged |
| `Runner.RunHalts` | single_threading-Code/scraper.py:861-869 | the loop ends at the list's end or at an index where stop was read at the head, read during the pause, or the pause is still on; nothing at or after it was fetched |
| `Runner.RunHaltReason` | single_threading-Code/scraper.py:862-869 | a halt at index k is explained by the flags read at k: stop at the head, stop during the pause, or the pause still on; with neither anywhere the loop does not halt |
| `Runner.RunFetchesBeforeHalt` | single_threading-Code/scraper.py:862-869 | the fetch log only grows, and no index at or after the halting one was fetched |
| `Runner.RunCovers` | single_threading-Code/scraper.py:861-888 | every index the loop passed holds a CID that ends in the output map or in `not_scraped` |
| `Runner.RunEntrantsFetched` | single_threading-Code/scraper.py:873-888 | every CID that enters a collection during a run was fetched by it |
| `Runner.RunFetchesEveryNewCid` | single_threading-Code/scraper.py:861-888 | a CID in neither collection at an index the loop passed is fetched; with `RunFetchesOnlyNew`, the run fetches exactly the new CIDs it passes |
| `Runner.StepAgrees` | single_threading-Code/scraper.py:873-875 | a turn reads only which CIDs the output map holds, never their months |
| `Runner.RunIgnoresLoadedMonths` | single_threading-Code/scraper.py:861-901 | runs from states that differ only in the months of some CIDs fetch, count, checkpoint, save and halt alike |
| `Runs.WorkerRunFetchesOnlyNew` | single_threading-Code/scraper.py:818-904 | a whole run fetches only CIDs absent from the reloaded workbook and the failed file, from the stored offset on, each once; it ends by saving the whole map unless still paused |
| `Runs.WorkerRunCovers` | single_threading-Code/scraper.py:852-888 | every index from the stored offset up to where the run ended holds a CID that ends in a collection |
| `Runs.WorkerRunReadsOnlyReloadedCids` | single_threading-Code/scraper.py:835-904 | started from any month map over the reloaded CIDs, a run differs only in those CIDs' months; the as-written map has the same CIDs but is not a month map |
| `Runs.FinishKeepsFailures` | single_threading-Code/scraper.py:903-904 | after the final save the failed file lists every failure of the run |
| `Runs.RunLeavesResumableState` | single_threading-Code/scraper.py:852-857 | a run leaves a start time, an offset no smaller than it started from, and its failures on disk |
| `Runs.ResumeFrom` | single_threading-Code/scraper.py:825-875 | a run started from a previous run's files starts at its offset, keeps its start time and never fetches its failures or its results that have at least one month |
| `Runs.ResumeSkipsFinishedWork` | single_threading-Code/scraper.py:818-904 | resuming after a stopped or finished run fetches nothing that run scraped (with at least one month) or gave up on |
| `Runs.CompletionCheckpoint` | single_threading-Code/scraper.py:891-896 | when something was fetched, the offset equals the list length iff the last index was fetched; with no fetch the status is the loaded one, stamped |
| `Runs.ThreeCidsAllScraped` | single_threading-Code/scraper.py:818-904 | three CIDs that all succeed are all scraped, the checkpoint is 3/3, and no failed file is written |
| `Runs.OneCidFails` | single_threading-Code/scraper.py:818-904 | a CID failing three times lands in the failed file, and the checkpoint advances past it |
| `Runs.StopThenResume` | single_threading-Code/scraper.py:818-904 | stopped at index 1, the run saves A with checkpoint 1; the resumed run fetches only B and completes the list |
| `Runs.StoppedAtOne` | single_threading-Code/scraper.py:862-865 | the first run scrapes A, reads the stop at index 1 and saves A with checkpoint 1 |
| `Runs.ResumedAtOne` | single_threading-Code/scraper.py:852-901 | resumed from those files, the run skips A, fetches B and checkpoints at 2 with both bills |
| `Runs.ResumedAsWritten` | single_threading-Code/scraper.py:835-844 | after the stopped run above, the program as written reloads A as {"Month": "2024-01", "Amount": 120.5}, not as its bill |
| `Runs.SkippedTailLeavesCheckpointShort` | single_threading-Code/scraper.py:891-896 | a resumed run whose remaining CIDs are done fetches nothing, and the offset stays below the list length |
| `Crash.ResumeSkipsUnsaved` | single_threading-Code/scraper.py:852-900 | resumed from the files of any loop head, a run fetches nothing below the stored offset, so a recorded CID missing from the workbook and the failed file that occurs only below that offset ends in neither collection |
| `Crash.CrashBeforeSaveLosesTwo` | single_threading-Code/scraper.py:861-900 | dying at the head of index 2 of a three-CID run leaves offset 2 and no saved data; the resumed run fetches only C and completes without A and B |
| `Crash.VisitSavingStatus` | single_threading-Code/scraper.py:877-900 | corrected fetch: the CID lands in a collection and is logged; the status record moves to i + 1 only with the save, and otherwise the status, the saved map and the failed file stay as they were |
| `Crash.StepSavingStatus` | single_threading-Code/scraper.py:862-900 | corrected turn: halts only at index i changing nothing else, and otherwise leaves the CID in a collection |
| `Crash.RunFromSavingStatus` | single_threading-Code/scraper.py:861-900 | the corrected loop halts, if at all, at an index in [i, list length) |
| `Crash.StepSavingStatusAgrees` | single_threading-Code/scraper.py:877-900 | a corrected turn and a turn as written, from states differing only in the status record, end in states differing only there |
| `Crash.RunSavingStatusAgrees` | single_threading-Code/scraper.py:861-900 | the corrected loop collects, counts, saves and halts exactly as the loop as written; only the status record differs |
| `Crash.StepSavingStatusRecoverable` | single_threading-Code/scraper.py:877-900 | a corrected turn keeps the offset at most i + 1 and keeps every recorded CID on disk or at or after the offset |
| `Crash.RunSavingStatusRecoverable` | single_threading-Code/scraper.py:861-900 | the corrected loop keeps every recorded CID recoverable |
| `Crash.StepSavingStatusReadsItsCid` | single_threading-Code/scraper.py:870 | a turn reads only the CID at its own index |
| `Crash.SavingStatusLoopHead` | single_threading-Code/scraper.py:861 | the corrected loop over the first n CIDs is the state at the head of index n: the whole loop continues from it or ends in it |
| `Crash.CrashLeavesRecoverable` | single_threading-Code/scraper.py:825-900 | at every loop head of the corrected worker, every recorded CID is in the workbook or the failed file, or at or after the stored offset |
| `Crash.ResumeFindsRecoverable` | single_threading-Code/scraper.py:825-852 | reading back such files, the reloaded workbook or failed list holds the CID, or the resumed loop starts at or before an index holding it |
| `Crash.ResumedRunCollects` | single_threading-Code/scraper.py:861-888 | a completed corrected run holds every CID it reloaded and every CID at an index from its start on |
| `Crash.CrashResumeLosesNothing` | single_threading-Code/scraper.py:825-900 | with the status written together with the data, a run resumed after dying at any loop head reloads or reaches every recorded CID, and if it completes, holds all of them |
| `Worker.ScrapingWorker` | single_threading-Code/scraper.py:818-928 | with a browser and a CID list, the files and flags end as `WorkerRun` computes; a stop seen in the pause sets `should_stop`; otherwise nothing is written |
| `Worker.RunLoop` | single_threading-Code/scraper.py:861-901 | the imperative loop ends in exactly the state `RunFrom` specifies, with status file and workbook in step |
| `Worker.Turn` | single_threading-Code/scraper.py:862-901 | one iteration is exactly `Step`; only a stop read in the pause changes the flags |
| `Worker.FetchAndRecord` | single_threading-Code/scraper.py:877-901 | fetch, record, checkpoint and periodic save together are exactly `Visit`; the status file holds the new record |
| `Worker.RecordResult` | single_threading-Code/scraper.py:877-888 | a success updates only the output map and the success count; a failure updates only `not_scraped` and the failure count |
| `Control.RunStateOf` | single_threading-Code/scraper.py:971 | inactive iff no live worker; paused over stopping over running, both directions |
| `Control.ControlSurface.StartScraping` | single_threading-Code/scraper.py:936-946 | refused with nothing changed while a worker is alive; otherwise both flags are cleared and a worker is launched |
| `Control.ControlSurface.WorkerExited` | single_threading-Code/scraper.py:924-928 | the worker thread is no longer alive |
| `Control.ControlSurface.ScrapingStatus` | single_threading-Code/scraper.py:958-974 | no session iff no thread, not active iff the thread ended; otherwise the run state and the status file's counters and start time |
| `Control.StartTwice` | single_threading-Code/scraper.py:936-946 | a second start while the first worker lives is refused, and a start after it exited is accepted |

## Left out

- The browser steps inside one attempt are not modelled: navigation, the CID field, the CAPTCHA, the bill table and the parsing of amounts. Each attempt is one outcome of the `fetch` oracle.
- The internet probe and its wait loop are not modelled. A network outage shows up only as attempt outcomes.
- The clock is not modelled: it is a reading per loop index.
- The elapsed-time and throughput statistics and the closing success-rate log are not modelled. They are floating-point and datetime arithmetic. The success rate divides by the list length, which fails on an empty list after the final save; that failure is logged and changes no state.
- Excel and JSON encodings are not modelled. The workbook is a sequence of rows and the failed file a set of CIDs; an unreadable workbook is not told apart from an empty table.
- How pandas types the CID column on reload is not modelled, and neither is NaN filtering.
- Failed writes of the three files (logged and ignored in the program) are not modelled: every write succeeds.
- Row order in the workbook, which follows dictionary insertion order, is not modelled: contracts speak of which rows exist.
- Threads, `time.sleep`, the SIGINT handler, Flask routing, JSON responses and logging are not modelled. Flag values are inputs read at the loop head and during each pause poll.
- A pause that is never lifted is cut off when the observed polls run out (the worker is still waiting, and no final save happens).
- The elapsed time in the status response is not modelled, because it depends on the clock.
- Pause, resume and stop routes are not modelled: none is defined in the live part of the file, so nothing sets `should_pause` except as an input.
- Runner.Begin: the worker starts `output_data` from the corrected reload `Store.Reload`. As written, each reloaded CID holds {"Month": its last month, "Amount": its last amount}, and the next save writes that CID as two rows named "Month" and "Amount", losing its months on disk. The model does not carry those values. `Store.ReloadAsWrittenSameKeys` shows that both reloads hold the same CIDs, and `Runs.WorkerRunReadsOnlyReloadedCids` shows that any month map over those CIDs gives the same run apart from their months. The as-written map is not a month map, so applying that to it rests on `Runner.StepAgrees` (a turn reads only membership) rather than on one lemma.
- Worker.ScrapingWorker: for CIDs reloaded from the workbook, the saved workbook holds their months, as the corrected reload gives them; the program as written saves the "Month"/"Amount" pairs instead (see `Runner.Begin` above).
- Runs.ResumedAtOne: the resumed run's output holds A's bill, as the corrected reload gives it; the program as written holds {"Month": "2024-01", "Amount": 120.5} for A (`Runs.ResumedAsWritten`).
- Runs.StopThenResume: the resumed run's output holds A's bill, as the corrected reload gives it; the program as written holds {"Month": "2024-01", "Amount": 120.5} for A (`Runs.ResumedAsWritten`).
- Worker.ScrapingWorker: the process dying mid-run (a kill, a crash, a power loss) is not an event of the worker model. `Crash` models it at loop heads from the pure loop: as written it loses every result and failure recorded since the last save (`Crash.ResumeSkipsUnsaved`, `Crash.CrashBeforeSaveLosesTwo`). The worker keeps the program's per-item status write, because every run the worker model can reach ends by saving or is left waiting in the pause; the corrected write lives only in `Crash`.
- Store.Reload: a CID scraped with an empty month map leaves no row, so it is not restored and would be fetched again; `Store.ReloadFlattened` states this.

## Findings

| source | as written | input that shows it | evidently intended | confidence | as-written member | corrected member |
|---|---|---|---|---|---|---|
| single_threading-Code/scraper.py:835-844 | the reload treats every column other than CID as a month, but `save_data` writes long rows (CID, Month, Amount), so each CID's map becomes {"Month": last month, "Amount": last amount}, and the next save writes that CID as rows named "Month" and "Amount" | a workbook saved from {A: {Jan: 1.0, Feb: 2.0}}, i.e. rows (A, Jan, 1.0) and (A, Feb, 2.0) | group rows by CID, mapping each Month to its Amount, so that reading back a save restores the map | high, not executed | `Store.ReloadAsWrittenLosesMonths` | `Store.ReloadFlattened` |
| single_threading-Code/scraper.py:891-900 | `status.json` is rewritten with `last_processed = index + 1` after every fetched CID, but the workbook and the failed file only when (index + 1) % 10 == 0; a resumed run starts at the stored offset, so results and failures recorded since the last save are never saved and never fetched again | CIDs A, B, C, every fetch succeeds; the worker dies at the head of index 2, leaving offset 2, no workbook rows and no failed list; the resumed run fetches only C | write `last_processed` together with the data it covers, so that a resume loses at most the work since the last save, which it fetches again | medium, not executed | `Crash.CrashBeforeSaveLosesTwo` | `Crash.CrashResumeLosesNothing` |

=== FILE: common.dfy ===
/** Shared vocabulary of the billing-history scraper model. */
module Common {

  /** The conventional Some/None datatype. */
  datatype Option<T> = None | Some(value: T)

  /** A consumer identifier (CID), read from the input workbook as text. */
  type Cid = string

  /** A billing-month label as shown in the portal's history table. */
  type Month = string

  /** A bill amount; the portal's text is parsed to a number before it reaches the core. */
  type Amount = real

  /** One CID's scraped history: billing month to amount. */
  type Months = map<Month, Amount>

  /** A clock reading (ISO timestamps in the program). */
  type Timestamp = nat
}

=== FILE: control.dfy ===
/** The control surface: the `should_pause` / `should_stop` flags, the worker thread, the
    start route and the status route. */
module Control {
  import opened Common
  import opened Progress

  /** `scraper_thread`: never created, alive, or finished. */
  datatype ThreadState = NoThread | Alive | Exited

  /** The run state the status route reports. */
  datatype RunState = Inactive | Paused | Stopping | Running

  /** The start route's answer: success, or the error response with status code 400. */
  datatype StartResult = Started | AlreadyRunning

  /** The status route's answer. NoSession: "No scraping session exists"; NotActive: "No active
      scraping running"; Active: the derived state and the counters of the status file. */
  datatype StatusResponse =
    | NoSession
    | NotActive
    | Active(state: RunState, lastProcessed: nat, totalProcessed: nat, startTime: Option<Timestamp>)

  /** The run state: inactive without a live worker; otherwise paused takes precedence over
      stopping, which takes precedence over running. */
  function RunStateOf(thread: ThreadState, paused: bool, stopping: bool): (r: RunState)
    ensures r == Inactive <==> thread != Alive
    ensures r == Paused <==> thread == Alive && paused
    ensures r == Stopping <==> thread == Alive && !paused && stopping
    ensures r == Running <==> thread == Alive && !paused && !stopping
  {
    if thread != Alive then Inactive
    else if paused then Paused
    else if stopping then Stopping
    else Running
  }

  class ControlSurface {
    var paused: bool
    var stopping: bool
    var thread: ThreadState

    /** The module-level state at process start. */
    constructor ()
      ensures !paused && !stopping && thread == NoThread
    {
      paused, stopping, thread := false, false, NoThread;
    }

    /** `start_scraping_api`: refused while a worker is alive, leaving flags and thread as they
        are; otherwise both flags are cleared and a new worker is launched. */
    method StartScraping() returns (r: StartResult)
      modifies this
      ensures old(thread) == Alive ==> r == AlreadyRunning && unchanged(this)
      ensures old(thread) != Alive ==> r == Started && !paused && !stopping && thread == Alive
    {
      if thread == Alive {
        return AlreadyRunning;
      }
      paused := false;
      stopping := false;
      thread := Alive;
      return Started;
    }

    /** `scraping_worker` returning: the thread is no longer alive. */
    method WorkerExited()
      requires thread == Alive
      modifies this`thread
      ensures thread == Exited
    {
      thread := Exited;
    }

    /** `scraping_status_api`: the answer for the current flags and the status file. */
    function ScrapingStatus(statusFile: StatusFile): (r: StatusResponse)
      reads this
      ensures r == NoSession <==> thread == NoThread
      ensures r == NotActive <==> thread == Exited
      ensures r.Active? <==> thread == Alive
      ensures r.Active? ==> r.state == RunStateOf(thread, paused, stopping) && r.state != Inactive
      ensures r.Active? ==> var rec := LoadStatus(statusFile);
                r.lastProcessed == rec.lastProcessed && r.totalProcessed == rec.totalProcessed
                && r.startTime == rec.startTime
    {
      match thread
      case NoThread => NoSession
      case Exited => NotActive
      case Alive =>
        var rec := LoadStatus(statusFile);
        Active(RunStateOf(thread, paused, stopping), rec.lastProcessed, rec.totalProcessed, rec.startTime)
    }
  }

  /** At most one active run: a second start while the first worker lives is refused and the
      status still reports the first run's state; once it has exited, a new start is accepted. */
  method StartTwice(statusFile: StatusFile) returns (first: StartResult, second: StartResult, third: StartResult)
    ensures first == Started && second == AlreadyRunning && third == Started
  {
    var surface := new ControlSurface();
    assert surface.ScrapingStatus(statusFile) == NoSession;
    first := surface.StartScraping();
    assert first == Started;
    assert surface.ScrapingStatus(statusFile).state == Running;
    second := surface.StartScraping();
    assert second == AlreadyRunning;
    surface.WorkerExited();
    assert surface.ScrapingStatus(statusFile) == NotActive;
    third := surface.StartScraping();
    assert third == Started;
  }
}

=== FILE: crash.dfy ===
/** A worker that dies at a loop head between two periodic saves, and what a run resumed from
    the files it leaves does. The program writes `status.json` after every fetched CID but the
    workbook and the failed file only every FlushEvery indices, so the stored offset can run
    ahead of the saved data: a resumed run starts past CIDs whose results were never saved and
    never fetches them again. The second half models the evident intent, the status record
    written together with the data, and proves that a run resumed from any loop head then
    loses no recorded CID. */
module Crash {
  import opened Common
  import opened Progress
  import opened Retry
  import opened Pause
  import opened Store
  import opened Runner
  import opened Runs

  // ---------------------------------------------------------------------------------------
  // As written

  /** Resumed from the files of any loop head (the status record as last written, a workbook,
      the failed file), a run fetches nothing below the stored offset. So a CID that the
      interrupted run had recorded, that neither the workbook nor the failed file holds, and
      that occurs in the list only below that offset, ends in neither collection. */
  lemma ResumeSkipsUnsaved(j: Job, table: seq<Row>, cids: seq<Cid>, env: Environment, fetch: Fetcher,
                           now: Timestamp, c: Cid)
    requires c in j.output || c in j.failed
    requires c !in CidsOf(table) && c !in LoadFailed(j.failedFile)
    requires forall k :: 0 <= k < |cids| && cids[k] == c ==> k < j.status.lastProcessed
    ensures var r := WorkerRun(StatusStored(j.status), table, j.failedFile, cids, env, fetch, now);
      && (forall p :: 0 <= p < |r.fetched| ==> j.status.lastProcessed <= r.fetched[p])
      && c !in r.output && c !in r.failed
  {
    var j0 := Begin(StatusStored(j.status), table, j.failedFile, now);
    var r0 := RunFrom(j0, cids, j.status.lastProcessed, env, fetch);
    RunFetchLog(j0, cids, j.status.lastProcessed, env, fetch);
    RunEntrantsFetched(j0, cids, j.status.lastProcessed, env, fetch);
    assert forall p :: 0 <= p < |r0.fetched| ==> cids[r0.fetched[p]] != c;
  }

  /** The loss on three CIDs: the worker dies at the head of index 2, after A and B were
      scraped and checkpointed but before any save. The files hold offset 2, no workbook rows
      and no failed list, so the resumed run fetches only C and completes without A and B. */
  lemma CrashBeforeSaveLosesTwo(now1: Timestamp, now2: Timestamp)
    ensures var cids := ["A", "B", "C"];
      var j0 := Begin(NoStatusFile, [], NoFailedFile, now1);
      var h := Step(Step(j0, cids, 0, Quiet, AlwaysFetched), cids, 1, Quiet, AlwaysFetched);
      && RunFrom(j0, cids, 0, Quiet, AlwaysFetched) == RunFrom(h, cids, 2, Quiet, AlwaysFetched)
      && h.output == map["A" := Bill, "B" := Bill] && h.status.lastProcessed == 2
      && h.flushed == None && h.failedFile == NoFailedFile
      && var r := WorkerRun(StatusStored(h.status), [], h.failedFile, cids, Quiet, AlwaysFetched, now2);
      && r.halt == NotHalted && r.fetched == [2] && r.output == map["C" := Bill] && r.failed == {}
  {

  }

  // ---------------------------------------------------------------------------------------
  // Corrected: the status record is written together with the data

  /** The corrected fetch: the result recorded as in `Runner.Visit`, but the status record is
      checkpointed only together with the periodic save, so the offset on disk never runs
      ahead of the saved data. */
  function VisitSavingStatus(j: Job, cids: seq<Cid>, i: nat, now: Timestamp, fetch: Fetcher): (r: Job)
    requires i < |cids|
    ensures cids[i] in r.output || cids[i] in r.failed
    ensures r.fetched == j.fetched + [i] && r.halt == j.halt
    ensures (i + 1) % FlushEvery == 0 ==> r.status.lastProcessed == i + 1 && r.flushed == Some(r.output)
    ensures (i + 1) % FlushEvery != 0 ==> r.status == j.status && r.flushed == j.flushed && r.failedFile == j.failedFile
  {
    var j1 := Record(j, cids[i], RetryResult(fetch, cids[i])).(fetched := j.fetched + [i]);
    if (i + 1) % FlushEvery == 0 then Flush(j1.(status := Checkpoint(j1.status, i + 1, j1.successCount, now)))
    else j1
  }

  /** One corrected turn: `Runner.Step` with the corrected fetch. */
  function StepSavingStatus(j: Job, cids: seq<Cid>, i: nat, env: Environment, fetch: Fetcher): (r: Job)
    requires i < |cids|
    ensures r.halt == j.halt || (r.halt != NotHalted && r.halt.at == i)
    ensures r.halt != j.halt ==> r == j.(halt := r.halt)
    ensures r.halt == NotHalted ==> cids[i] in r.output || cids[i] in r.failed
  {
    var s := env(i);
    if s.stop then j.(halt := StopFlag(i))
    else match PauseWait(s.paused, s.polls)
      case StopRequested => j.(halt := StopInPause(i))
      case StillPaused => j.(halt := BlockedInPause(i))
      case Resumed =>
        if cids[i] in j.output || cids[i] in j.failed then j
        else VisitSavingStatus(j, cids, i, s.now, fetch)
  }

  /** The corrected loop from index `i`. */
  function RunFromSavingStatus(j: Job, cids: seq<Cid>, i: nat, env: Environment, fetch: Fetcher): (r: Job)
    requires j.halt == NotHalted
    decreases |cids| - i
    ensures r.halt != NotHalted ==> i <= r.halt.at < |cids|
  {
    if i >= |cids| then j
    else
      var next := StepSavingStatus(j, cids, i, env, fetch);
      if next.halt != NotHalted then next else RunFromSavingStatus(next, cids, i + 1, env, fetch)
  }

  /** The correction touches only the status record: from states that differ at most there, a
      corrected turn and a turn as written end in states that differ at most there. */
  lemma StepSavingStatusAgrees(a: Job, b: Job, cids: seq<Cid>, i: nat, env: Environment, fetch: Fetcher)
    requires i < |cids| && a.(status := b.status) == b
    ensures var r := StepSavingStatus(a, cids, i, env, fetch);
      var q := Step(b, cids, i, env, fetch);
      r.(status := q.status) == q
  {

  }

  /** The corrected loop collects, counts, saves and halts exactly as the loop as written does;
      only the status record differs. */
  lemma {:induction false} RunSavingStatusAgrees(a: Job, b: Job, cids: seq<Cid>, i: nat, env: Environment, fetch: Fetcher)
    requires a.halt == NotHalted && a.(status := b.status) == b
    decreases |cids| - i
    ensures var r := RunFromSavingStatus(a, cids, i, env, fetch);
      var q := RunFrom(b, cids, i, env, fetch);
      r.(status := q.status) == q
  {
    if i < |cids| {
      var na := StepSavingStatus(a, cids, i, env, fetch);
      var nb := Step(b, cids, i, env, fetch);
      StepSavingStatusAgrees(a, b, cids, i, env, fetch);
      RunFromTurn(b, nb, cids, i, env, fetch);
      if na.halt == NotHalted {
        RunSavingStatusAgrees(na, nb, cids, i + 1, env, fetch);
      }
    }
  }

  /** The CIDs that reading back the workbook on disk gives: those of the last saved map that
      have at least one month, or, before any save, those of the workbook the run started
      from. */
  function WorkbookCids(j: Job, loaded: set<Cid>): (w: set<Cid>)
  {
    if j.flushed.Some? then WithHistory(j.flushed.value).Keys else loaded
  }

  /** Every CID the worker has recorded (scraped with at least one month, or failed) is in the
      workbook or the failed file on disk, or occurs in the list at or after the stored offset,
      where a resumed run will reach it. */
  ghost predicate Recoverable(j: Job, loaded: set<Cid>, cids: seq<Cid>)
  {
    forall c :: c in WithHistory(j.output) || c in j.failed ==>
      c in WorkbookCids(j, loaded) || c in LoadFailed(j.failedFile)
      || exists k :: j.status.lastProcessed <= k < |cids| && cids[k] == c
  }

  /** A corrected turn keeps every recorded CID recoverable: a fetch without a save leaves the
      offset at or below the fetched index, and a save puts everything recorded on disk. */
  lemma StepSavingStatusRecoverable(j: Job, loaded: set<Cid>, cids: seq<Cid>, i: nat, env: Environment, fetch: Fetcher)
    requires i < |cids| && j.status.lastProcessed <= i && Recoverable(j, loaded, cids)
    ensures var r := StepSavingStatus(j, cids, i, env, fetch);
      r.status.lastProcessed <= i + 1 && Recoverable(r, loaded, cids)
  {

  }

  /** The corrected loop keeps every recorded CID recoverable at every loop head. */
  lemma {:induction false} RunSavingStatusRecoverable(j: Job, loaded: set<Cid>, cids: seq<Cid>, i: nat,
                                                      env: Environment, fetch: Fetcher)
    requires j.halt == NotHalted && j.status.lastProcessed <= i && Recoverable(j, loaded, cids)
    decreases |cids| - i
    ensures Recoverable(RunFromSavingStatus(j, cids, i, env, fetch), loaded, cids)
  {
    if i < |cids| {
      var next := StepSavingStatus(j, cids, i, env, fetch);
      StepSavingStatusRecoverable(j, loaded, cids, i, env, fetch);
      if next.halt == NotHalted {
        RunSavingStatusRecoverable(next, loaded, cids, i + 1, env, fetch);
      }
    }
  }

  /** A turn reads only its own CID of the list. */
  lemma StepSavingStatusReadsItsCid(j: Job, cids: seq<Cid>, other: seq<Cid>, i: nat, env: Environment, fetch: Fetcher)
    requires i < |cids| && i < |other| && cids[i] == other[i]
    ensures StepSavingStatus(j, cids, i, env, fetch) == StepSavingStatus(j, other, i, env, fetch)
  {

  }

  /** The corrected loop run over `cids[..n]` is the state at the head of index `n` of the
      loop over `cids`: the whole loop continues from it, or, if it halted, ends in it. */
  lemma {:induction false} SavingStatusLoopHead(j: Job, cids: seq<Cid>, i: nat, n: nat, env: Environment, fetch: Fetcher)
    requires j.halt == NotHalted && i <= n <= |cids|
    decreases n - i
    ensures var h := RunFromSavingStatus(j, cids[..n], i, env, fetch);
      && (h.halt == NotHalted ==> RunFromSavingStatus(j, cids, i, env, fetch) == RunFromSavingStatus(h, cids, n, env, fetch))
      && (h.halt != NotHalted ==> RunFromSavingStatus(j, cids, i, env, fetch) == h)
  {
    if i < n {
      StepSavingStatusReadsItsCid(j, cids[..n], cids, i, env, fetch);
      var next := StepSavingStatus(j, cids, i, env, fetch);
      if next.halt == NotHalted {
        SavingStatusLoopHead(next, cids, i + 1, n, env, fetch);
      }
    }
  }

  /** The state of the corrected worker at the head of index `n`, or where it halted before. */
  function CrashedAt(statusFile: StatusFile, table: seq<Row>, failedFile: FailedFile, cids: seq<Cid>,
                     env: Environment, fetch: Fetcher, now: Timestamp, n: nat): Job
    requires n <= |cids|
  {
    RunFromSavingStatus(Begin(statusFile, table, failedFile, now), cids[..n], LoadStatus(statusFile).lastProcessed, env, fetch)
  }

  /** At every loop head of the corrected worker, every recorded CID is recoverable from the
      files on disk. */
  lemma CrashLeavesRecoverable(statusFile: StatusFile, table: seq<Row>, failedFile: FailedFile, cids: seq<Cid>,
                               env: Environment, fetch: Fetcher, now: Timestamp, n: nat)
    requires n <= |cids|
    ensures Recoverable(CrashedAt(statusFile, table, failedFile, cids, env, fetch, now, n), CidsOf(table), cids)
  {
    var j0 := Begin(statusFile, table, failedFile, now);
    var start := LoadStatus(statusFile).lastProcessed;
    var h := RunFromSavingStatus(j0, cids[..n], start, env, fetch);
    assert Recoverable(j0, CidsOf(table), cids[..n]);
    RunSavingStatusRecoverable(j0, CidsOf(table), cids[..n], start, env, fetch);
    forall c | c in WithHistory(h.output) || c in h.failed
      ensures c in WorkbookCids(h, CidsOf(table)) || c in LoadFailed(h.failedFile)
              || exists k :: h.status.lastProcessed <= k < |cids| && cids[k] == c
    {
      if !(c in WorkbookCids(h, CidsOf(table)) || c in LoadFailed(h.failedFile)) {
        var k :| h.status.lastProcessed <= k < n && cids[..n][k] == c;
        assert cids[k] == c;
      }
    }
  }

  /** Reading back the files of a loop head where `c` is recoverable: the reloaded workbook
      or the failed list holds `c`, or the resumed loop starts at or before an index that
      holds it. */
  lemma ResumeFindsRecoverable(h: Job, loaded: set<Cid>, cids: seq<Cid>, table1: seq<Row>, now: Timestamp, c: Cid)
    requires Recoverable(h, loaded, cids) && (c in WithHistory(h.output) || c in h.failed)
    requires h.flushed.Some? ==> Flattens(table1, h.flushed.value)
    requires h.flushed.None? ==> CidsOf(table1) == loaded
    ensures var k0 := Begin(StatusStored(h.status), table1, h.failedFile, now);
      c in k0.output || c in k0.failed || exists k :: k0.status.lastProcessed <= k < |cids| && cids[k] == c
  {

  }

  /** A corrected run that completes holds every CID it reloaded and every CID at an index
      from its start on. */
  lemma ResumedRunCollects(k0: Job, cids: seq<Cid>, off: nat, env: Environment, fetch: Fetcher, c: Cid)
    requires k0.halt == NotHalted
    requires c in k0.output || c in k0.failed || exists k :: off <= k < |cids| && cids[k] == c
    ensures var r := RunFromSavingStatus(k0, cids, off, env, fetch);
      r.halt == NotHalted ==> c in r.output || c in r.failed
  {
    RunSavingStatusAgrees(k0, k0, cids, off, env, fetch);
    RunGrows(k0, cids, off, env, fetch);
    RunCovers(k0, cids, off, env, fetch);
  }

  /** Crash safety of the corrected program: let the worker die at the head of any index `n`,
      with the workbook on disk flattening the last saved map (or still the starting one). A
      run resumed from the files it leaves reloads every CID recorded before the crash, or
      starts at or before an index that holds it; so if that run completes, every such CID is
      in one of its collections. */
  lemma CrashResumeLosesNothing(statusFile: StatusFile, table: seq<Row>, failedFile: FailedFile, cids: seq<Cid>,
                                env: Environment, fetch: Fetcher, now1: Timestamp, n: nat, table1: seq<Row>,
                                env2: Environment, fetch2: Fetcher, now2: Timestamp, c: Cid)
    requires n <= |cids|
    requires var h := CrashedAt(statusFile, table, failedFile, cids, env, fetch, now1, n);
      && h.halt == NotHalted
      && (h.flushed.Some? ==> Flattens(table1, h.flushed.value))
      && (h.flushed.None? ==> table1 == table)
      && (c in WithHistory(h.output) || c in h.failed)
    ensures var h := CrashedAt(statusFile, table, failedFile, cids, env, fetch, now1, n);
      var k0 := Begin(StatusStored(h.status), table1, h.failedFile, now2);
      var r := RunFromSavingStatus(k0, cids, h.status.lastProcessed, env2, fetch2);
      && (c in k0.output || c in k0.failed || exists k :: h.status.lastProcessed <= k < |cids| && cids[k] == c)
      && (r.halt == NotHalted ==> c in r.output || c in r.failed)
  {
    var h := CrashedAt(statusFile, table, failedFile, cids, env, fetch, now1, n);
    CrashLeavesRecoverable(statusFile, table, failedFile, cids, env, fetch, now1, n);
    ResumeFindsRecoverable(h, CidsOf(table), cids, table1, now2, c);
    var k0 := Begin(StatusStored(h.status), table1, h.failedFile, now2);
    ResumedRunCollects(k0, cids, h.status.lastProcessed, env2, fetch2, c);
  }
}

=== FILE: pause.dfy ===
/** The pause wait (`check_pause`). The flags are written by another thread, so the model
    receives the values the wait loop reads: for each turn, `should_pause` at the loop head and
    `should_stop` after the one-second sleep. */
module Pause {

  datatype Poll = Poll(paused: bool, stopping: bool)

  /** Resumed: `check_pause` returns False. StopRequested: it returns True. StillPaused: the
      observed polls end while the worker is still waiting. */
  datatype PauseOutcome = Resumed | StopRequested | StillPaused

  /** The outcome of the wait loop over the observed polls. */
  function WaitLoop(polls: seq<Poll>): (r: PauseOutcome)
    ensures r == Resumed ==> exists k :: 0 <= k < |polls| && !polls[k].paused
    ensures r == StopRequested ==> exists k :: 0 <= k < |polls| && polls[k].paused && polls[k].stopping
  {
    if polls == [] then StillPaused
    else if !polls[0].paused then Resumed
    else if polls[0].stopping then StopRequested
    else WaitLoop(polls[1..])
  }

  /** The outcome of `check_pause` given the first read of `should_pause`. */
  function PauseWait(paused: bool, polls: seq<Poll>): (r: PauseOutcome)
    ensures r != Resumed ==> paused
  {
    if paused then WaitLoop(polls) else Resumed
  }

  /** Index of the first poll that ends the wait. */
  ghost predicate EndsAt(polls: seq<Poll>, i: int)
  {
    && 0 <= i < |polls|
    && (!polls[i].paused || polls[i].stopping)
    && forall k :: 0 <= k < i ==> polls[k].paused && !polls[k].stopping
  }

  /** `check_pause` reports a stop exactly when it was paused and, in some turn that found the
      pause still set, read the stop flag set, every earlier turn having read it clear. */
  lemma {:induction false} StopIffObservedWhilePaused(paused: bool, polls: seq<Poll>)
    ensures PauseWait(paused, polls) == StopRequested <==>
            paused && exists i :: EndsAt(polls, i) && polls[i].paused
  {
    if paused {
      WaitLoopCharacterised(polls);
    }
  }

  /** The wait loop resumes at the first turn that finds the pause cleared, stops at the first
      that finds the stop set, and is still waiting when no turn did either. */
  lemma {:induction false} WaitLoopCharacterised(polls: seq<Poll>)
    ensures WaitLoop(polls) == StillPaused <==> forall k :: 0 <= k < |polls| ==> polls[k].paused && !polls[k].stopping
    ensures WaitLoop(polls) == StopRequested <==> exists i :: EndsAt(polls, i) && polls[i].paused
    ensures WaitLoop(polls) == Resumed <==> exists i :: EndsAt(polls, i) && !polls[i].paused
  {
    if polls != [] {
      WaitLoopCharacterised(polls[1..]);
      if polls[0].paused && !polls[0].stopping {
        forall i | EndsAt(polls[1..], i) ensures EndsAt(polls, i + 1) { }
        forall i | EndsAt(polls, i) ensures i > 0 && EndsAt(polls[1..], i - 1) { }
      } else {
        assert EndsAt(polls, 0);
        forall i | EndsAt(polls, i) ensures i == 0 { }
      }
    }
  }

  /** `check_pause`: returns at once when the pause flag is clear; otherwise polls until the
      pause is lifted (Resumed) or a stop is read while still paused (StopRequested). */
  method CheckPause(paused: bool, polls: seq<Poll>) returns (r: PauseOutcome, used: nat)
    ensures r == PauseWait(paused, polls)
    ensures !paused ==> r == Resumed && used == 0
    ensures used <= |polls|
    ensures r != StillPaused ==> paused ==> used > 0 && EndsAt(polls, used - 1)
    ensures r == StopRequested ==> paused && polls[used - 1].paused && polls[used - 1].stopping
    ensures r == StillPaused ==> paused && used == |polls| && forall k :: 0 <= k < |polls| ==> polls[k].paused && !polls[k].stopping
  {
    if !paused {
      return Resumed, 0;
    }
    var i := 0;
    while i < |polls| && polls[i].paused
      invariant i <= |polls|
      invariant forall k :: 0 <= k < i ==> polls[k].paused && !polls[k].stopping
      invariant WaitLoop(polls) == WaitLoop(polls[i..])
    {
      // sleep one second, then read the stop flag
      if polls[i].stopping {
        return StopRequested, i + 1;
      }
      i := i + 1;
    }
    if i < |polls| {
      return Resumed, i + 1;
    }
    return StillPaused, i;
  }
}

=== FILE: progress.dfy ===
/** The persisted status record (`status.json`): resume offset, success total and timestamps. */
module Progress {
  import opened Common

  datatype StatusRecord = StatusRecord(
    lastProcessed: nat,          // offset into the CID list just after the last fetched CID
    totalProcessed: nat,         // successes counted so far, across runs
    startTime: Option<Timestamp>,
    lastUpdated: Option<Timestamp>)

  /** What the status file holds when it is read. */
  datatype StatusFile =
    | NoStatusFile
    | EmptyStatusFile
    | UnreadableStatusFile
    | StatusStored(record: StatusRecord)

  /** The record a run starts from: the stored one when the file is present, non-empty and
      readable, and otherwise the zero record without a start time. */
  function LoadStatus(f: StatusFile): (r: StatusRecord)
    ensures f.StatusStored? ==> r == f.record
    ensures !f.StatusStored? ==> r.lastProcessed == 0 && r.totalProcessed == 0
    ensures !f.StatusStored? ==> r.startTime.None? && r.lastUpdated.None?
  {
    match f
    case StatusStored(record) => record
    case _ => StatusRecord(0, 0, None, None)
  }

  /** Stamps the start time of the very first run; a resumed run keeps the original stamp,
      so elapsed time is measured from the job's true start. */
  function StampStartTime(rec: StatusRecord, now: Timestamp): (r: StatusRecord)
    ensures r.startTime.Some?
    ensures rec.startTime.Some? ==> r == rec
    ensures r.lastProcessed == rec.lastProcessed && r.totalProcessed == rec.totalProcessed
    ensures r.lastUpdated == rec.lastUpdated
    ensures rec.startTime.None? ==> r.startTime == Some(now)
  {
    if rec.startTime.None? then rec.(startTime := Some(now)) else rec
  }

  /** Stamping twice, at any two instants, is stamping once: the second clock reading is ignored. */
  lemma StampStartTimeIdempotent(rec: StatusRecord, first: Timestamp, later: Timestamp)
    ensures StampStartTime(StampStartTime(rec, first), later) == StampStartTime(rec, first)
  {
  }

  /** A checkpoint written by the worker loop: new offset and total, same start time. */
  function Checkpoint(rec: StatusRecord, next: nat, successes: nat, now: Timestamp): (r: StatusRecord)
    ensures r.lastProcessed == next && r.totalProcessed == successes
    ensures r.startTime == rec.startTime && r.lastUpdated == Some(now)
  {
    rec.(lastProcessed := next, totalProcessed := successes, lastUpdated := Some(now))
  }
}

=== FILE: retry.dfy ===
/** The bounded retry wrapper around one CID's fetch (`process_cid`). Each attempt (network
    probe, page navigation, CAPTCHA, table scrape) is one opaque step that either yields the
    CID's month-to-amount map or fails with a message. */
module Retry {
  import opened Common

  /** MAX_RETRIES: attempts per CID. */
  const MaxRetries: nat := 3

  datatype Attempt = Fetched(data: Months) | Failed(reason: string)

  /** The attempt oracle: `fetch(cid, k)` is the outcome of the k-th attempt (from 0) for `cid`. */
  type Fetcher = (Cid, nat) -> Attempt

  /** What `process_cid` delivers: the scraped map, or the exception of the last attempt. */
  datatype FetchResult = Scraped(data: Months) | Exhausted(reason: string)

  /** The outcome of the retry loop entered after `k` failed attempts. */
  function RetryFrom(fetch: Fetcher, cid: Cid, k: nat): (r: FetchResult)
    requires k < MaxRetries
    decreases MaxRetries - k
    ensures r.Exhausted? ==> fetch(cid, MaxRetries - 1) == Failed(r.reason)
  {
    match fetch(cid, k)
    case Fetched(data) => Scraped(data)
    case Failed(reason) =>
      if k + 1 < MaxRetries then RetryFrom(fetch, cid, k + 1) else Exhausted(reason)
  }

  /** The result of processing `cid` from its first attempt. */
  function RetryResult(fetch: Fetcher, cid: Cid): (r: FetchResult)
    ensures fetch(cid, 0).Fetched? ==> r == Scraped(fetch(cid, 0).data)
    ensures r.Exhausted? ==> fetch(cid, MaxRetries - 1) == Failed(r.reason)
  {
    RetryFrom(fetch, cid, 0)
  }

  /** From attempt `k` on, the loop succeeds exactly when one of the remaining attempts does,
      and then with the map of the first successful one; otherwise the error raised is the
      last attempt's. */
  lemma {:induction false} RetryFromCharacterised(fetch: Fetcher, cid: Cid, k: nat)
    requires k < MaxRetries
    decreases MaxRetries - k
    ensures var r := RetryFrom(fetch, cid, k);
      && (r.Scraped? <==> exists j :: k <= j < MaxRetries && fetch(cid, j).Fetched?)
      && (r.Scraped? ==> exists j :: k <= j < MaxRetries && fetch(cid, j) == Fetched(r.data)
                                     && forall i :: k <= i < j ==> fetch(cid, i).Failed?)
      && (r.Exhausted? ==> fetch(cid, MaxRetries - 1) == Failed(r.reason))
  {
    if fetch(cid, k).Failed? && k + 1 < MaxRetries {
      RetryFromCharacterised(fetch, cid, k + 1);
      var r := RetryFrom(fetch, cid, k);
      if r.Scraped? {
        var j :| k + 1 <= j < MaxRetries && fetch(cid, j) == Fetched(r.data)
                 && forall i :: k + 1 <= i < j ==> fetch(cid, i).Failed?;
        assert forall i :: k <= i < j ==> fetch(cid, i).Failed?;
      } else {
        assert forall j :: k <= j < MaxRetries ==> !fetch(cid, j).Fetched?;
      }
    } else if fetch(cid, k).Fetched? {
      assert RetryFrom(fetch, cid, k) == Scraped(fetch(cid, k).data);
    }
  }

  /** `process_cid` succeeds exactly when one of its MaxRetries attempts does, returning the
      first success; otherwise it reports the last attempt's error. */
  lemma RetryResultCharacterised(fetch: Fetcher, cid: Cid)
    ensures var r := RetryResult(fetch, cid);
      && (r.Scraped? <==> exists j :: 0 <= j < MaxRetries && fetch(cid, j).Fetched?)
      && (r.Scraped? ==> exists j :: 0 <= j < MaxRetries && fetch(cid, j) == Fetched(r.data)
                                     && forall i :: 0 <= i < j ==> fetch(cid, i).Failed?)
      && (r.Exhausted? ==> fetch(cid, MaxRetries - 1) == Failed(r.reason))
  {
    RetryFromCharacterised(fetch, cid, 0);
  }

  /** `process_cid`: at most MaxRetries attempts; the first successful attempt's map is
      returned, and the error surfaces only after the last of MaxRetries consecutive failures. */
  method ProcessCid(fetch: Fetcher, cid: Cid) returns (r: FetchResult, attempts: nat)
    ensures r == RetryResult(fetch, cid)
    ensures 1 <= attempts <= MaxRetries
    ensures forall i :: 0 <= i < attempts - 1 ==> fetch(cid, i).Failed?
    ensures r.Scraped? ==> fetch(cid, attempts - 1) == Fetched(r.data)
    ensures r.Exhausted? ==> attempts == MaxRetries && fetch(cid, attempts - 1) == Failed(r.reason)
  {
    var retries := 0;
    var lastError := "";
    while retries < MaxRetries
      invariant retries <= MaxRetries
      invariant forall i :: 0 <= i < retries ==> fetch(cid, i).Failed?
      invariant 0 < retries ==> fetch(cid, retries - 1) == Failed(lastError)
      invariant retries < MaxRetries ==> RetryResult(fetch, cid) == RetryFrom(fetch, cid, retries)
      invariant retries == MaxRetries ==> RetryResult(fetch, cid) == Exhausted(lastError)
    {
      match fetch(cid, retries)
      case Fetched(data) =>
        r, attempts := Scraped(data), retries + 1;
        return;
      case Failed(reason) =>
        // the program sleeps CAPTCHA_RETRY_DELAY between attempts and raises after the last
        retries := retries + 1;
        lastError := reason;
    }
    r, attempts := Exhausted(lastError), retries;
  }
}

=== FILE: runner.dfy ===
/** A pure account of one run of `scraping_worker`: the state it starts from, what one turn of
    its loop does, the whole loop, and the final save. The imperative worker is proved to end in
    exactly this state; the lemmas here state what such a run guarantees. */
module Runner {
  import opened Common
  import opened Progress
  import opened Retry
  import opened Pause
  import opened Store

  /** The periodic save happens after index i when (i + 1) is a multiple of this. */
  const FlushEvery: nat := 10

  /** What the worker reads from the control flags at the head of one loop turn: `should_stop`,
      then `should_pause` and the polls of the pause wait; and the clock for `last_updated`. */
  datatype LoopSample = LoopSample(stop: bool, paused: bool, polls: seq<Poll>, now: Timestamp)

  /** The flag samples of every loop index. */
  type Environment = nat -> LoopSample

  /** Why the loop left early, and at which index. BlockedInPause: the observed polls end while
      the worker is still waiting inside the pause. */
  datatype Halt = NotHalted | StopFlag(at: nat) | StopInPause(at: nat) | BlockedInPause(at: nat)

  /** The worker's state: `output_data`, `not_scraped`, the two counters and the status record;
      the last map the workbook was written from and the failed file on disk; the indices whose
      CID was fetched, in order; and how the loop ended. */
  datatype Job = Job(
    output: map<Cid, Months>,
    failed: set<Cid>,
    successCount: nat,
    failedCount: nat,
    status: StatusRecord,
    flushed: Option<map<Cid, Months>>,
    failedFile: FailedFile,
    fetched: seq<nat>,
    halt: Halt)

  /** `save_data(output_data, not_scraped)` seen from the worker. */
  function Flush(j: Job): (r: Job)
    ensures r.flushed == Some(j.output) && r.failedFile == MergeFailed(j.failed, j.failedFile)
    ensures r.(flushed := j.flushed, failedFile := j.failedFile) == j
  {
    j.(flushed := Some(j.output), failedFile := MergeFailed(j.failed, j.failedFile))
  }

  /** The result of `process_cid` for `cid` stored in its collection, with its counter. */
  function Record(j: Job, cid: Cid, result: FetchResult): (r: Job)
    ensures cid in r.output || cid in r.failed
    ensures r.successCount + r.failedCount == j.successCount + j.failedCount + 1
    ensures result.Scraped? ==> r.output == j.output[cid := result.data] && r.successCount == j.successCount + 1
                                && r.failed == j.failed && r.failedCount == j.failedCount
    ensures result.Exhausted? ==> r.failed == j.failed + {cid} && r.failedCount == j.failedCount + 1
                                  && r.output == j.output && r.successCount == j.successCount
    ensures r.(output := j.output, failed := j.failed, successCount := j.successCount, failedCount := j.failedCount) == j
  {
    match result
    case Scraped(data) => j.(output := j.output[cid := data], successCount := j.successCount + 1)
    case Exhausted(_) => j.(failed := j.failed + {cid}, failedCount := j.failedCount + 1)
  }

  /** One CID fetched at index `i`: record the result in exactly one collection, checkpoint the
      status, and save every FlushEvery indices. */
  function Visit(j: Job, cids: seq<Cid>, i: nat, now: Timestamp, fetch: Fetcher): (r: Job)
    requires i < |cids|
    ensures cids[i] in r.output || cids[i] in r.failed
    ensures r.fetched == j.fetched + [i] && r.halt == j.halt
    ensures r.status.lastProcessed == i + 1 && r.status.totalProcessed == r.successCount
  {
    var j1 := Record(j, cids[i], RetryResult(fetch, cids[i]));
    var j2 := j1.(status := Checkpoint(j1.status, i + 1, j1.successCount, now), fetched := j1.fetched + [i]);
    if (i + 1) % FlushEvery == 0 then Flush(j2) else j2
  }

  /** One turn of the loop at index `i`. */
  function Step(j: Job, cids: seq<Cid>, i: nat, env: Environment, fetch: Fetcher): (r: Job)
    requires i < |cids|
    ensures r.halt == j.halt || (r.halt != NotHalted && r.halt.at == i)
    ensures r.halt != j.halt ==> r == j.(halt := r.halt)
    ensures r.halt == NotHalted ==> cids[i] in r.output || cids[i] in r.failed
  {
    var s := env(i);
    if s.stop then j.(halt := StopFlag(i))
    else match PauseWait(s.paused, s.polls)
      case StopRequested => j.(halt := StopInPause(i))
      case StillPaused => j.(halt := BlockedInPause(i))
      case Resumed =>
        if cids[i] in j.output || cids[i] in j.failed then j
        else Visit(j, cids, i, s.now, fetch)
  }

  /** The loop `for index in range(i, len(cids))`. */
  function RunFrom(j: Job, cids: seq<Cid>, i: nat, env: Environment, fetch: Fetcher): (r: Job)
    requires j.halt == NotHalted
    decreases |cids| - i
    ensures r.halt != NotHalted ==> i <= r.halt.at < |cids|
  {
    if i >= |cids| then j
    else
      var next := Step(j, cids, i, env, fetch);
      if next.halt != NotHalted then next else RunFrom(next, cids, i + 1, env, fetch)
  }

  /** One turn of the loop, read off `RunFrom`: a halting turn is the run's result, any other
      turn hands over to the run from the next index. */
  lemma RunFromTurn(j: Job, next: Job, cids: seq<Cid>, i: nat, env: Environment, fetch: Fetcher)
    requires j.halt == NotHalted && i < |cids| && next == Step(j, cids, i, env, fetch)
    ensures next.halt != NotHalted ==> RunFrom(j, cids, i, env, fetch) == next
    ensures next.halt == NotHalted ==> RunFrom(j, cids, i, env, fetch) == RunFrom(next, cids, i + 1, env, fetch)
  {
  }

  /** The state the loop starts from: the reloaded workbook, the failed list, and the status
      record with its start time stamped. */
  function Begin(statusFile: StatusFile, table: seq<Row>, failedFile: FailedFile, now: Timestamp): (j: Job)
    ensures j.halt == NotHalted && j.fetched == [] && j.flushed.None?
    ensures j.status == StampStartTime(LoadStatus(statusFile), now)
    ensures j.output == Reload(table) && j.failed == LoadFailed(failedFile)
    ensures j.successCount == j.status.totalProcessed && j.failedCount == |j.failed|
  {
    var status := StampStartTime(LoadStatus(statusFile), now);
    var failed := LoadFailed(failedFile);
    Job(Reload(table), failed, status.totalProcessed, |failed|, status, None, failedFile, [], NotHalted)
  }

  /** The final save after the loop; a worker still blocked in the pause never reaches it. */
  function Finish(j: Job): (r: Job)
    ensures r.(flushed := j.flushed, failedFile := j.failedFile) == j
    ensures j.halt.BlockedInPause? || r.flushed == Some(j.output)
  {
    if j.halt.BlockedInPause? then j else Flush(j)
  }

  /** A whole run of the worker after the browser and the CID list were obtained. */
  function WorkerRun(statusFile: StatusFile, table: seq<Row>, failedFile: FailedFile, cids: seq<Cid>,
                     env: Environment, fetch: Fetcher, now: Timestamp): (r: Job)
    ensures r.halt != NotHalted ==> LoadStatus(statusFile).lastProcessed <= r.halt.at < |cids|
    ensures r.halt.BlockedInPause? || r.flushed == Some(r.output)
  {
    var j0 := Begin(statusFile, table, failedFile, now);
    Finish(RunFrom(j0, cids, j0.status.lastProcessed, env, fetch))
  }

  // ---------------------------------------------------------------------------------------
  // One turn

  /** A CID already scraped or already failed is not fetched, and nothing else changes: no
      counter, no status checkpoint, no periodic save. */
  lemma SkipChangesNothing(j: Job, cids: seq<Cid>, i: nat, env: Environment, fetch: Fetcher)
    requires i < |cids| && !env(i).stop && PauseWait(env(i).paused, env(i).polls) == Resumed
    requires cids[i] in j.output || cids[i] in j.failed
    ensures Step(j, cids, i, env, fetch) == j
  {
  }

  /** A stop flag read at the loop head ends the loop before the current CID is fetched. */
  lemma StopFlagEndsBeforeFetch(j: Job, cids: seq<Cid>, i: nat, env: Environment, fetch: Fetcher)
    requires i < |cids| && env(i).stop
    ensures Step(j, cids, i, env, fetch) == j.(halt := StopFlag(i))
  {
  }

  /** A fetched CID lands in exactly one collection with its counter, and the status record
      becomes the checkpoint `last_processed = i + 1`, `total_processed = success_count`. */
  lemma VisitRecordsOnce(j: Job, cids: seq<Cid>, i: nat, now: Timestamp, fetch: Fetcher)
    requires i < |cids| && cids[i] !in j.output && cids[i] !in j.failed
    ensures var r := Visit(j, cids, i, now, fetch);
      && (match RetryResult(fetch, cids[i])
          case Scraped(data) =>
            r.output == j.output[cids[i] := data] && r.successCount == j.successCount + 1
            && r.failed == j.failed && r.failedCount == j.failedCount
          case Exhausted(_) =>
            r.failed == j.failed + {cids[i]} && r.failedCount == j.failedCount + 1
            && r.output == j.output && r.successCount == j.successCount)
      && r.status == Checkpoint(j.status, i + 1, r.successCount, now)
      && r.fetched == j.fetched + [i] && r.halt == j.halt
      && r.flushed == (if (i + 1) % FlushEvery == 0 then Some(r.output) else j.flushed)
  {
  }

  /** `next` is `j` after fetching `cid` at index `i`: the CID was in neither collection and
      is now in exactly one, with its counter; the status is checkpointed. */
  ghost predicate FetchedAt(j: Job, next: Job, cid: Cid, i: nat)
  {
    && cid !in j.output && cid !in j.failed
    && next.fetched == j.fetched + [i] && next.halt == j.halt
    && next.status.lastProcessed == i + 1 && next.status.totalProcessed == next.successCount
    && next.status.startTime == j.status.startTime
    && ((&& cid in next.output && next.output == j.output[cid := next.output[cid]]
         && next.successCount == j.successCount + 1
         && next.failed == j.failed && next.failedCount == j.failedCount)
        || (&& next.failed == j.failed + {cid} && next.failedCount == j.failedCount + 1
            && next.output == j.output && next.successCount == j.successCount))
  }

  /** One turn either halts changing nothing else, skips changing nothing, or fetches. */
  lemma StepCases(j: Job, cids: seq<Cid>, i: nat, env: Environment, fetch: Fetcher)
    requires i < |cids| && j.halt == NotHalted
    ensures var next := Step(j, cids, i, env, fetch);
      || (next.halt != NotHalted && next == j.(halt := next.halt) && next.halt.at == i)
      || next == j
      || FetchedAt(j, next, cids[i], i)
  {
  }

  // ---------------------------------------------------------------------------------------
  // The whole loop

  /** Neither collection loses or changes an entry, each counter grows by exactly the number of
      new entries in its collection, and a scraped CID is never also a failed one. */
  lemma {:induction false} RunGrows(j: Job, cids: seq<Cid>, i: nat, env: Environment, fetch: Fetcher)
    requires j.halt == NotHalted
    decreases |cids| - i
    ensures var r := RunFrom(j, cids, i, env, fetch);
      && j.output.Keys <= r.output.Keys
      && (forall c :: c in j.output ==> r.output[c] == j.output[c])
      && j.failed <= r.failed
      && j.successCount <= r.successCount && j.failedCount <= r.failedCount
      && r.successCount - j.successCount == |r.output| - |j.output|
      && r.failedCount - j.failedCount == |r.failed| - |j.failed|
      && (j.output.Keys !! j.failed ==> r.output.Keys !! r.failed)
  {
    if i < |cids| {
      var next := Step(j, cids, i, env, fetch);
      StepCases(j, cids, i, env, fetch);
      RunFromTurn(j, next, cids, i, env, fetch);
      if next.halt == NotHalted {
        RunGrows(next, cids, i + 1, env, fetch);
      }
    }
  }

  /** The fetch log of `b` extends that of `a` by indices in [lo, hi), in strictly increasing
      order. */
  ghost predicate LogExtends(a: Job, b: Job, lo: nat, hi: nat)
  {
    && |a.fetched| <= |b.fetched| && b.fetched[..|a.fetched|] == a.fetched
    && (forall p :: |a.fetched| <= p < |b.fetched| ==> lo <= b.fetched[p] < hi)
    && (forall p, q :: |a.fetched| <= p < q < |b.fetched| ==> b.fetched[p] < b.fetched[q])
  }

  lemma ComposeLogs(a: Job, b: Job, c: Job, lo: nat, mid: nat, hi: nat)
    requires LogExtends(a, b, lo, mid) && LogExtends(b, c, mid, hi) && lo <= mid <= hi
    ensures LogExtends(a, c, lo, hi)
  {
    assert c.fetched[..|a.fetched|] == c.fetched[..|b.fetched|][..|a.fetched|];
    forall p | |a.fetched| <= p < |b.fetched| ensures c.fetched[p] == b.fetched[p] {
      assert c.fetched[..|b.fetched|][p] == b.fetched[p];
    }
  }

  /** The fetch log of a run only grows, and what it gains are indices in [i, |cids|), in
      strictly increasing order. */
  lemma {:induction false} RunFetchLog(j: Job, cids: seq<Cid>, i: nat, env: Environment, fetch: Fetcher)
    requires j.halt == NotHalted
    decreases |cids| - i
    ensures LogExtends(j, RunFrom(j, cids, i, env, fetch), i, |cids|)
  {
    assert j.fetched[..|j.fetched|] == j.fetched;
    if i < |cids| {
      var next := Step(j, cids, i, env, fetch);
      StepCases(j, cids, i, env, fetch);
      RunFromTurn(j, next, cids, i, env, fetch);
      assert LogExtends(j, next, i, i + 1);
      if next.halt == NotHalted {
        RunFetchLog(next, cids, i + 1, env, fetch);
        ComposeLogs(j, next, RunFrom(next, cids, i + 1, env, fetch), i, i + 1, |cids|);
      }
    }
  }

  /** What `b` fetched beyond `a`: CIDs that were in neither collection of `a`, each once,
      each now in a collection of `b`, each having moved exactly one counter. */
  ghost predicate FetchesOnlyNew(a: Job, b: Job, cids: seq<Cid>)
  {
    && |a.fetched| <= |b.fetched|
    && (forall p :: |a.fetched| <= p < |b.fetched| ==> b.fetched[p] < |cids|)
    && (forall p :: |a.fetched| <= p < |b.fetched| ==> cids[b.fetched[p]] !in a.output && cids[b.fetched[p]] !in a.failed)
    && (forall p :: |a.fetched| <= p < |b.fetched| ==> cids[b.fetched[p]] in b.output || cids[b.fetched[p]] in b.failed)
    && (forall p, q :: |a.fetched| <= p < q < |b.fetched| ==> cids[b.fetched[p]] != cids[b.fetched[q]])
    && |b.fetched| - |a.fetched| == (b.successCount - a.successCount) + (b.failedCount - a.failedCount)
  }

  lemma ComposeFetches(a: Job, b: Job, c: Job, cids: seq<Cid>)
    requires FetchesOnlyNew(a, b, cids) && FetchesOnlyNew(b, c, cids)
    requires b.fetched[..|a.fetched|] == a.fetched && c.fetched[..|b.fetched|] == b.fetched
    requires a.output.Keys <= b.output.Keys && a.failed <= b.failed
    requires b.output.Keys <= c.output.Keys && b.failed <= c.failed
    ensures FetchesOnlyNew(a, c, cids)
  {
    forall p | |a.fetched| <= p < |b.fetched| ensures c.fetched[p] == b.fetched[p] {
      assert c.fetched[..|b.fetched|][p] == b.fetched[p];
    }
    forall p, q | |a.fetched| <= p < q < |c.fetched| ensures cids[c.fetched[p]] != cids[c.fetched[q]] {
      if q < |b.fetched| {
        assert c.fetched[p] == b.fetched[p] && c.fetched[q] == b.fetched[q];
      } else if p < |b.fetched| {
        assert c.fetched[p] == b.fetched[p];
      }
    }
  }

  /** Idempotent skipping: each CID fetched by a run was in neither collection when the run
      began, no CID is fetched twice, every fetched CID ends in one of the collections, and
      every fetch moved exactly one counter. */
  lemma {:induction false} RunFetchesOnlyNew(j: Job, cids: seq<Cid>, i: nat, env: Environment, fetch: Fetcher)
    requires j.halt == NotHalted
    decreases |cids| - i
    ensures FetchesOnlyNew(j, RunFrom(j, cids, i, env, fetch), cids)
  {
    if i < |cids| {
      var next := Step(j, cids, i, env, fetch);
      StepCases(j, cids, i, env, fetch);
      RunFromTurn(j, next, cids, i, env, fetch);
      assert FetchesOnlyNew(j, next, cids);
      if next.halt == NotHalted {
        RunFetchesOnlyNew(next, cids, i + 1, env, fetch);
        RunFetchLog(next, cids, i + 1, env, fetch);
        RunGrows(next, cids, i + 1, env, fetch);
        ComposeFetches(j, next, RunFrom(next, cids, i + 1, env, fetch), cids);
      }
    }
  }

  /** How the status record of `b` follows from that of `a`: the offset does not go back, the
      start time is kept, and the fetch log only grows; with no new fetch the record and the
      success count are unchanged, and otherwise the record is the checkpoint after the last
      fetched index. */
  ghost predicate CheckpointedFrom(a: Job, b: Job)
  {
    && a.status.lastProcessed <= b.status.lastProcessed
    && b.status.startTime == a.status.startTime
    && |a.fetched| <= |b.fetched| && b.fetched[..|a.fetched|] == a.fetched
    && (|b.fetched| == |a.fetched| ==> b.status == a.status && b.successCount == a.successCount)
    && (|b.fetched| > |a.fetched| ==>
          b.status.lastProcessed == b.fetched[|b.fetched| - 1] + 1 && b.status.totalProcessed == b.successCount)
  }

  lemma ComposeCheckpoints(a: Job, b: Job, c: Job)
    requires CheckpointedFrom(a, b) && CheckpointedFrom(b, c)
    ensures CheckpointedFrom(a, c)
  {
    assert c.fetched[..|a.fetched|] == c.fetched[..|b.fetched|][..|a.fetched|];
    if |c.fetched| == |b.fetched| {
      assert c.fetched == c.fetched[..|b.fetched|];
    }
  }

  /** The status checkpoint: `last_processed` never decreases, the start time is kept, and
      after the last fetched index k the record says `last_processed == k + 1` and
      `total_processed == success_count`; a run that fetched nothing leaves it unchanged. */
  lemma {:induction false} RunCheckpoint(j: Job, cids: seq<Cid>, i: nat, env: Environment, fetch: Fetcher)
    requires j.halt == NotHalted && j.status.lastProcessed <= i
    decreases |cids| - i
    ensures CheckpointedFrom(j, RunFrom(j, cids, i, env, fetch))
  {
    if i < |cids| {
      var next := Step(j, cids, i, env, fetch);
      StepCases(j, cids, i, env, fetch);
      RunFromTurn(j, next, cids, i, env, fetch);
      assert CheckpointedFrom(j, next);
      if next.halt == NotHalted {
        RunCheckpoint(next, cids, i + 1, env, fetch);
        ComposeCheckpoints(j, next, RunFrom(next, cids, i + 1, env, fetch));
      }
    } else {
      assert j.fetched[..|j.fetched|] == j.fetched;
    }
  }

  /** How the loop ends: at the end of the list, or at index `at` because the stop flag was
      read at the loop head, or a stop was read during the pause, or the worker is still paused;
      no CID at or after `at` was fetched. */
  lemma RunHalts(j: Job, cids: seq<Cid>, i: nat, env: Environment, fetch: Fetcher)
    requires j.halt == NotHalted
    ensures var r := RunFrom(j, cids, i, env, fetch);
      && |j.fetched| <= |r.fetched|
      && (r.halt != NotHalted ==> i <= r.halt.at < |cids|)
      && (r.halt != NotHalted ==> forall p :: |j.fetched| <= p < |r.fetched| ==> r.fetched[p] < r.halt.at)
      && (r.halt.StopFlag? ==> env(r.halt.at).stop)
      && (r.halt.StopInPause? ==> !env(r.halt.at).stop && PauseWait(env(r.halt.at).paused, env(r.halt.at).polls) == StopRequested)
      && (r.halt.BlockedInPause? ==> !env(r.halt.at).stop && PauseWait(env(r.halt.at).paused, env(r.halt.at).polls) == StillPaused)
      && ((forall k :: i <= k < |cids| ==> !env(k).stop && PauseWait(env(k).paused, env(k).polls) == Resumed) ==> r.halt == NotHalted)
  {
    RunHaltReason(j, cids, i, env, fetch);
    RunFetchesBeforeHalt(j, cids, i, env, fetch);
  }

  /** Why the loop halted, read off the flags at the halting index; with no stop and no pause
      hold anywhere it does not halt. */
  lemma {:induction false} RunHaltReason(j: Job, cids: seq<Cid>, i: nat, env: Environment, fetch: Fetcher)
    requires j.halt == NotHalted
    decreases |cids| - i
    ensures var r := RunFrom(j, cids, i, env, fetch);
      && (r.halt.StopFlag? ==> env(r.halt.at).stop)
      && (r.halt.StopInPause? ==> !env(r.halt.at).stop && PauseWait(env(r.halt.at).paused, env(r.halt.at).polls) == StopRequested)
      && (r.halt.BlockedInPause? ==> !env(r.halt.at).stop && PauseWait(env(r.halt.at).paused, env(r.halt.at).polls) == StillPaused)
      && ((forall k :: i <= k < |cids| ==> !env(k).stop && PauseWait(env(k).paused, env(k).polls) == Resumed) ==> r.halt == NotHalted)
  {
    if i < |cids| {
      var next := Step(j, cids, i, env, fetch);
      RunFromTurn(j, next, cids, i, env, fetch);
      if next.halt == NotHalted {
        RunHaltReason(next, cids, i + 1, env, fetch);
      }
    }
  }

  /** Nothing at or after the halting index was fetched. */
  lemma {:induction false} RunFetchesBeforeHalt(j: Job, cids: seq<Cid>, i: nat, env: Environment, fetch: Fetcher)
    requires j.halt == NotHalted
    decreases |cids| - i
    ensures var r := RunFrom(j, cids, i, env, fetch);
      && |j.fetched| <= |r.fetched|
      && (r.halt != NotHalted ==> forall p :: |j.fetched| <= p < |r.fetched| ==> r.fetched[p] < r.halt.at)
  {
    if i < |cids| {
      var next := Step(j, cids, i, env, fetch);
      StepCases(j, cids, i, env, fetch);
      RunFromTurn(j, next, cids, i, env, fetch);
      if next.halt == NotHalted {
        var r := RunFrom(next, cids, i + 1, env, fetch);
        RunFetchesBeforeHalt(next, cids, i + 1, env, fetch);
        RunFetchLog(next, cids, i + 1, env, fetch);
        if r.halt != NotHalted {
          forall p | |j.fetched| <= p < |next.fetched| ensures r.fetched[p] < r.halt.at {
            assert r.fetched[p] == r.fetched[..|next.fetched|][p] == next.fetched[p] == i;
          }
        }
      }
    }
  }

  /** The loop does its work: every index from `i` up to where the loop ended holds a CID that
      is in one of the collections afterwards, whether it was fetched now or found done. */
  lemma {:induction false} RunCovers(j: Job, cids: seq<Cid>, i: nat, env: Environment, fetch: Fetcher)
    requires j.halt == NotHalted
    decreases |cids| - i
    ensures var r := RunFrom(j, cids, i, env, fetch);
      forall k :: i <= k < |cids| && (r.halt == NotHalted || k < r.halt.at) ==> cids[k] in r.output || cids[k] in r.failed
  {
    if i < |cids| {
      var next := Step(j, cids, i, env, fetch);
      RunFromTurn(j, next, cids, i, env, fetch);
      if next.halt == NotHalted {
        var r := RunFrom(next, cids, i + 1, env, fetch);
        RunCovers(next, cids, i + 1, env, fetch);
        RunGrows(next, cids, i + 1, env, fetch);
        assert cids[i] in r.output || cids[i] in r.failed;
      }
    }
  }

  // ---------------------------------------------------------------------------------------
  // What the run reads of the reloaded workbook

  /** `a` and `b` differ at most in the months held for the CIDs in `loaded`: the same CIDs are
      in the output map and in the last saved map, and every other field is equal. */
  ghost predicate AgreeOutside(a: Job, b: Job, loaded: set<Cid>)
  {
    && a.output.Keys == b.output.Keys
    && (forall c :: c in a.output && c !in loaded ==> a.output[c] == b.output[c])
    && (a.flushed.Some? <==> b.flushed.Some?)
    && (a.flushed.Some? ==> a.flushed.value.Keys == b.flushed.value.Keys)
    && (a.flushed.Some? ==> forall c :: c in a.flushed.value && c !in loaded ==> a.flushed.value[c] == b.flushed.value[c])
    && a.(output := b.output, flushed := b.flushed) == b
  }

  /** One turn looks only at which CIDs the output map holds, never at their months. */
  lemma StepAgrees(a: Job, b: Job, loaded: set<Cid>, cids: seq<Cid>, i: nat, env: Environment, fetch: Fetcher)
    requires i < |cids| && AgreeOutside(a, b, loaded)
    ensures AgreeOutside(Step(a, cids, i, env, fetch), Step(b, cids, i, env, fetch), loaded)
  {
    var s := env(i);
    if !s.stop && PauseWait(s.paused, s.polls) == Resumed && cids[i] !in a.output && cids[i] !in a.failed {
      var result := RetryResult(fetch, cids[i]);
      var ra := Record(a, cids[i], result);
      var rb := Record(b, cids[i], result);
      assert AgreeOutside(ra, rb, loaded);
      var ca := ra.(status := Checkpoint(ra.status, i + 1, ra.successCount, s.now), fetched := ra.fetched + [i]);
      var cb := rb.(status := Checkpoint(rb.status, i + 1, rb.successCount, s.now), fetched := rb.fetched + [i]);
      assert AgreeOutside(ca, cb, loaded);
      if (i + 1) % FlushEvery == 0 {
        assert AgreeOutside(Flush(ca), Flush(cb), loaded);
      }
    }
  }

  /** Two runs from states that differ only in the months of the CIDs in `loaded` fetch the same
      CIDs, keep the same failures, counters and status, save at the same points and end the
      same way; only those months differ. */
  lemma {:induction false} RunIgnoresLoadedMonths(a: Job, b: Job, loaded: set<Cid>, cids: seq<Cid>, i: nat,
                                                  env: Environment, fetch: Fetcher)
    requires a.halt == NotHalted && AgreeOutside(a, b, loaded)
    decreases |cids| - i
    ensures AgreeOutside(RunFrom(a, cids, i, env, fetch), RunFrom(b, cids, i, env, fetch), loaded)
  {
    if i < |cids| {
      var na := Step(a, cids, i, env, fetch);
      var nb := Step(b, cids, i, env, fetch);
      StepAgrees(a, b, loaded, cids, i, env, fetch);
      RunFromTurn(a, na, cids, i, env, fetch);
      RunFromTurn(b, nb, cids, i, env, fetch);
      if na.halt == NotHalted {
        RunIgnoresLoadedMonths(na, nb, loaded, cids, i + 1, env, fetch);
      }
    }
  }

  /** Every CID in `r`'s collections that is not in `j`'s was fetched between the two. */
  ghost predicate EntrantsLogged(j: Job, r: Job, cids: seq<Cid>)
  {
    forall c :: (c in r.output || c in r.failed) && c !in j.output && c !in j.failed ==>
      exists p :: |j.fetched| <= p < |r.fetched| && r.fetched[p] < |cids| && cids[r.fetched[p]] == c
  }

  /** Every CID that enters a collection during a run was fetched by it: nothing reaches
      `output_data` or `not_scraped` except through `process_cid`. */
  lemma {:induction false} RunEntrantsFetched(j: Job, cids: seq<Cid>, i: nat, env: Environment, fetch: Fetcher)
    requires j.halt == NotHalted
    decreases |cids| - i
    ensures EntrantsLogged(j, RunFrom(j, cids, i, env, fetch), cids)
  {
    if i < |cids| {
      var next := Step(j, cids, i, env, fetch);
      StepCases(j, cids, i, env, fetch);
      RunFromTurn(j, next, cids, i, env, fetch);
      if next.halt == NotHalted {
        var r := RunFrom(next, cids, i + 1, env, fetch);
        RunEntrantsFetched(next, cids, i + 1, env, fetch);
        RunFetchLog(next, cids, i + 1, env, fetch);
        TurnEntrantsLogged(j, next, r, cids, i);
      }
    }
  }

  /** A turn that fetched nothing, or fetched its own CID, keeps the log of entrants. */
  lemma TurnEntrantsLogged(j: Job, next: Job, r: Job, cids: seq<Cid>, i: nat)
    requires i < |cids| && (next == j || FetchedAt(j, next, cids[i], i))
    requires |next.fetched| <= |r.fetched| && r.fetched[..|next.fetched|] == next.fetched
    requires EntrantsLogged(next, r, cids)
    ensures EntrantsLogged(j, r, cids)
  {
    forall c | (c in r.output || c in r.failed) && c !in j.output && c !in j.failed
      ensures exists p :: |j.fetched| <= p < |r.fetched| && r.fetched[p] < |cids| && cids[r.fetched[p]] == c
    {
      if c in next.output || c in next.failed {
        var p := |j.fetched|;
        assert r.fetched[p] == r.fetched[..|next.fetched|][p] == next.fetched[p] == i;
      } else {
        var p :| |next.fetched| <= p < |r.fetched| && r.fetched[p] < |cids| && cids[r.fetched[p]] == c;
        assert |j.fetched| <= |next.fetched|;
      }
    }
  }

  /** A CID that was in neither collection at an index the loop passed is fetched by the run;
      with `RunFetchesOnlyNew`, the run fetches exactly the new CIDs it passes. */
  lemma RunFetchesEveryNewCid(j: Job, cids: seq<Cid>, i: nat, env: Environment, fetch: Fetcher)
    requires j.halt == NotHalted
    ensures var r := RunFrom(j, cids, i, env, fetch);
      forall k :: i <= k < |cids| && (r.halt == NotHalted || k < r.halt.at) && cids[k] !in j.output && cids[k] !in j.failed ==>
        exists p :: |j.fetched| <= p < |r.fetched| && r.fetched[p] < |cids| && cids[r.fetched[p]] == cids[k]
  {
    RunCovers(j, cids, i, env, fetch);
    RunEntrantsFetched(j, cids, i, env, fetch);
  }
}

=== FILE: runs.dfy ===
/** Whole runs of the worker: what one run guarantees from the files it starts from, what a
    second run started from the files the first one left does, and three concrete runs: every
    CID scraped, one CID failing, and a stopped run resumed. */
module Runs {
  import opened Common
  import opened Progress
  import opened Retry
  import opened Pause
  import opened Store
  import opened Runner

  /** A run fetches each CID at most once, only CIDs that were neither in the reloaded workbook
      nor in the failed list, only at indices from the stored `last_processed` on, in order;
      and unless it is left blocked in the pause it ends by saving the whole output map. */
  lemma WorkerRunFetchesOnlyNew(statusFile: StatusFile, table: seq<Row>, failedFile: FailedFile, cids: seq<Cid>,
                                env: Environment, fetch: Fetcher, now: Timestamp)
    ensures var r := WorkerRun(statusFile, table, failedFile, cids, env, fetch, now);
      && (forall p :: 0 <= p < |r.fetched| ==>
            LoadStatus(statusFile).lastProcessed <= r.fetched[p] < |cids|
            && cids[r.fetched[p]] !in Reload(table) && cids[r.fetched[p]] !in LoadFailed(failedFile))
      && (forall p, q :: 0 <= p < q < |r.fetched| ==> r.fetched[p] < r.fetched[q] && cids[r.fetched[p]] != cids[r.fetched[q]])
      && (forall p :: 0 <= p < |r.fetched| ==> cids[r.fetched[p]] in r.output || cids[r.fetched[p]] in r.failed)
      && (r.halt.BlockedInPause? || r.flushed == Some(r.output))
  {
    var j0 := Begin(statusFile, table, failedFile, now);
    RunFetchesOnlyNew(j0, cids, j0.status.lastProcessed, env, fetch);
    RunFetchLog(j0, cids, j0.status.lastProcessed, env, fetch);
  }

  /** The loop does its work: every index from the stored `last_processed` up to where the run
      ended holds a CID that is afterwards in the output map or in `not_scraped`. */
  lemma WorkerRunCovers(statusFile: StatusFile, table: seq<Row>, failedFile: FailedFile, cids: seq<Cid>,
                        env: Environment, fetch: Fetcher, now: Timestamp)
    ensures var r := WorkerRun(statusFile, table, failedFile, cids, env, fetch, now);
      forall k :: LoadStatus(statusFile).lastProcessed <= k < |cids| && (r.halt == NotHalted || k < r.halt.at) ==>
        cids[k] in r.output || cids[k] in r.failed
  {
    var j0 := Begin(statusFile, table, failedFile, now);
    RunCovers(j0, cids, j0.status.lastProcessed, env, fetch);
  }

  /** The run reads only which CIDs the reloaded workbook holds. Started instead from any month
      map over the same CIDs, a run fetches the same CIDs, keeps the same failures, counters and
      status, saves the same CIDs at the same points and ends the same way; only the months of
      reloaded CIDs differ. The map the program builds is not a month map, but it holds the same
      CIDs (`Store.ReloadAsWrittenSameKeys`), and a turn reads only membership (`StepAgrees`). */
  lemma WorkerRunReadsOnlyReloadedCids(statusFile: StatusFile, table: seq<Row>, failedFile: FailedFile,
                                       loaded: map<Cid, Months>, cids: seq<Cid>,
                                       env: Environment, fetch: Fetcher, now: Timestamp)
    requires loaded.Keys == CidsOf(table)
    ensures var j0 := Begin(statusFile, table, failedFile, now);
      AgreeOutside(WorkerRun(statusFile, table, failedFile, cids, env, fetch, now),
                   Finish(RunFrom(j0.(output := loaded), cids, j0.status.lastProcessed, env, fetch)),
                   CidsOf(table))
  {
    var j0 := Begin(statusFile, table, failedFile, now);
    var k0 := j0.(output := loaded);
    assert AgreeOutside(j0, k0, CidsOf(table));
    RunIgnoresLoadedMonths(j0, k0, CidsOf(table), cids, j0.status.lastProcessed, env, fetch);
    var a := RunFrom(j0, cids, j0.status.lastProcessed, env, fetch);
    var b := RunFrom(k0, cids, j0.status.lastProcessed, env, fetch);
    if !a.halt.BlockedInPause? {
      assert AgreeOutside(Flush(a), Flush(b), CidsOf(table));
    }
  }

  /** The saved failed file always lists every CID of the run's `not_scraped` set. */
  lemma FinishKeepsFailures(j: Job)
    ensures j.failed <= LoadFailed(Finish(j).failedFile) || j.halt.BlockedInPause?
  {
    if !j.halt.BlockedInPause? && j.failed != {} {
      assert Finish(j).failedFile.ids == j.failed + LoadFailed(j.failedFile);
    }
  }

  /** What a run leaves for the next one: its start time stamped, every failure listed in the
      failed file, and the status record as stored. */
  lemma RunLeavesResumableState(statusFile: StatusFile, table: seq<Row>, failedFile: FailedFile, cids: seq<Cid>,
                                env: Environment, fetch: Fetcher, now: Timestamp)
    ensures var r := WorkerRun(statusFile, table, failedFile, cids, env, fetch, now);
      && r.status.startTime.Some?
      && LoadStatus(statusFile).lastProcessed <= r.status.lastProcessed
      && (r.halt.BlockedInPause? || r.failed <= LoadFailed(r.failedFile))
  {
    var j0 := Begin(statusFile, table, failedFile, now);
    var run := RunFrom(j0, cids, j0.status.lastProcessed, env, fetch);
    RunCheckpoint(j0, cids, j0.status.lastProcessed, env, fetch);
    FinishKeepsFailures(run);
  }

  /** A run started from the state `r1` left: the files hold `r1`'s status, a table flattening
      `r1`'s output, and a failed list covering `r1`'s failures. */
  lemma {:induction false} ResumeFrom(r1: Job, table1: seq<Row>, cids: seq<Cid>, env: Environment, fetch: Fetcher, now: Timestamp)
    requires r1.status.startTime.Some? && r1.failed <= LoadFailed(r1.failedFile)
    requires Flattens(table1, r1.output)
    ensures var r2 := WorkerRun(StatusStored(r1.status), table1, r1.failedFile, cids, env, fetch, now);
      && r2.status.startTime == r1.status.startTime
      && r1.status.lastProcessed <= r2.status.lastProcessed
      && (forall p :: 0 <= p < |r2.fetched| ==>
            r1.status.lastProcessed <= r2.fetched[p] < |cids|
            && cids[r2.fetched[p]] !in WithHistory(r1.output) && cids[r2.fetched[p]] !in r1.failed)
  {
    ReloadFlattened(table1, r1.output);
    var k0 := Begin(StatusStored(r1.status), table1, r1.failedFile, now);
    assert k0.status == r1.status;
    RunCheckpoint(k0, cids, k0.status.lastProcessed, env, fetch);
    WorkerRunFetchesOnlyNew(StatusStored(r1.status), table1, r1.failedFile, cids, env, fetch, now);
  }

  /** Resuming: a second run over the same list, started from the status file, the workbook and
      the failed file that a first run left behind, starts at the first run's checkpoint, keeps
      its start time, and fetches no CID the first run scraped (with at least one month) or
      gave up on. */
  lemma ResumeSkipsFinishedWork(statusFile: StatusFile, table: seq<Row>, failedFile: FailedFile, cids: seq<Cid>,
                                env1: Environment, fetch1: Fetcher, now1: Timestamp, table1: seq<Row>,
                                env2: Environment, fetch2: Fetcher, now2: Timestamp)
    requires !WorkerRun(statusFile, table, failedFile, cids, env1, fetch1, now1).halt.BlockedInPause?
    requires Flattens(table1, WorkerRun(statusFile, table, failedFile, cids, env1, fetch1, now1).output)
    ensures var r1 := WorkerRun(statusFile, table, failedFile, cids, env1, fetch1, now1);
      var r2 := WorkerRun(StatusStored(r1.status), table1, r1.failedFile, cids, env2, fetch2, now2);
      && r2.status.startTime == r1.status.startTime
      && r1.status.lastProcessed <= r2.status.lastProcessed
      && (forall p :: 0 <= p < |r2.fetched| ==>
            r1.status.lastProcessed <= r2.fetched[p] < |cids|
            && cids[r2.fetched[p]] !in WithHistory(r1.output) && cids[r2.fetched[p]] !in r1.failed)
  {
    var r1 := WorkerRun(statusFile, table, failedFile, cids, env1, fetch1, now1);
    RunLeavesResumableState(statusFile, table, failedFile, cids, env1, fetch1, now1);
    ResumeFrom(r1, table1, cids, env2, fetch2, now2);
  }

  /** A run that fetched at least one CID ends with `last_processed` equal to the list length
      exactly when the last index of the list was fetched; a skipped tail leaves it short. */
  lemma CompletionCheckpoint(statusFile: StatusFile, table: seq<Row>, failedFile: FailedFile, cids: seq<Cid>,
                             env: Environment, fetch: Fetcher, now: Timestamp)
    ensures var r := WorkerRun(statusFile, table, failedFile, cids, env, fetch, now);
      && (|r.fetched| > 0 ==> (r.status.lastProcessed == |cids| <==> r.fetched[|r.fetched| - 1] == |cids| - 1))
      && (|r.fetched| == 0 ==> r.status == StampStartTime(LoadStatus(statusFile), now))
  {
    var j0 := Begin(statusFile, table, failedFile, now);
    var r0 := RunFrom(j0, cids, j0.status.lastProcessed, env, fetch);
    RunCheckpoint(j0, cids, j0.status.lastProcessed, env, fetch);
    RunFetchLog(j0, cids, j0.status.lastProcessed, env, fetch);
    var r := Finish(r0);
    assert r.fetched == r0.fetched && r.status == r0.status;
  }

  // ---------------------------------------------------------------------------------------
  // Concrete runs

  /** One month's bill, as every successful fetch below returns it. */
  const Bill: Months := map["2024-01" := 120.5]

  /** Every attempt for every CID succeeds. */
  function AlwaysFetched(cid: Cid, attempt: nat): Attempt
  {
    Fetched(Bill)
  }

  /** Every attempt for `bad` fails; every other CID succeeds. */
  function FailingFor(bad: Cid): Fetcher
  {
    (cid: Cid, attempt: nat) => if cid == bad then Failed("timeout") else Fetched(Bill)
  }

  /** Neither flag is ever set; the clock reads 7. */
  function Quiet(index: nat): LoopSample
  {
    LoopSample(false, false, [], 7)
  }

  /** The stop flag is read as set at the loop head for index `n`. */
  function StopAt(n: nat): Environment
  {
    (index: nat) => LoopSample(index == n, false, [], 7)
  }

  /** A fresh run over three CIDs that all succeed scrapes all three, checkpoints at 3, and
      writes no failed file. */
  lemma ThreeCidsAllScraped(now: Timestamp)
    ensures var r := WorkerRun(NoStatusFile, [], NoFailedFile, ["A", "B", "C"], Quiet, AlwaysFetched, now);
      && r.output == map["A" := Bill, "B" := Bill, "C" := Bill] && r.failed == {}
      && r.status == StatusRecord(3, 3, Some(now), Some(7))
      && r.fetched == [0, 1, 2] && r.halt == NotHalted
      && r.flushed == Some(r.output) && r.failedFile == NoFailedFile
  {
  }

  /** A CID whose three attempts all fail lands in the failed file, the other is scraped, and
      the checkpoint still advances past the failed one. */
  lemma OneCidFails(now: Timestamp)
    ensures var r := WorkerRun(NoStatusFile, [], NoFailedFile, ["A", "B"], Quiet, FailingFor("B"), now);
      && r.output == map["A" := Bill] && r.failed == {"B"} && r.failedCount == 1
      && r.status == StatusRecord(2, 1, Some(now), Some(7))
      && r.failedFile == FailedList({"B"})
  {
  }

  /** Stopped at the head of index 1 after A was scraped, the run saves A and checkpoints at 1;
      a run resumed from those files starts at B, fetches only B, and completes the list. */
  lemma StopThenResume(now1: Timestamp, table1: seq<Row>, now2: Timestamp)
    requires Flattens(table1, map["A" := Bill])
    ensures var r1 := WorkerRun(NoStatusFile, [], NoFailedFile, ["A", "B"], StopAt(1), AlwaysFetched, now1);
      && r1.halt == StopFlag(1) && r1.output == map["A" := Bill]
      && r1.status == StatusRecord(1, 1, Some(now1), Some(7)) && r1.failedFile == NoFailedFile
      && var r2 := WorkerRun(StatusStored(r1.status), table1, r1.failedFile, ["A", "B"], Quiet, AlwaysFetched, now2);
      && r2.fetched == [1] && r2.halt == NotHalted
      && r2.output == map["A" := Bill, "B" := Bill]
      && r2.status == StatusRecord(2, 2, Some(now1), Some(7))
  {
    StoppedAtOne(now1);
    var r1 := WorkerRun(NoStatusFile, [], NoFailedFile, ["A", "B"], StopAt(1), AlwaysFetched, now1);
    ResumedAtOne(now1, table1, now2);
  }

  /** The first half of the scenario above: the run stopped at index 1. */
  lemma StoppedAtOne(now1: Timestamp)
    ensures WorkerRun(NoStatusFile, [], NoFailedFile, ["A", "B"], StopAt(1), AlwaysFetched, now1)
         == Job(map["A" := Bill], {}, 1, 0, StatusRecord(1, 1, Some(now1), Some(7)), Some(map["A" := Bill]),
                NoFailedFile, [0], StopFlag(1))
  {
  }

  /** The second half: the run resumed from the stopped run's files. */
  lemma ResumedAtOne(now1: Timestamp, table1: seq<Row>, now2: Timestamp)
    requires Flattens(table1, map["A" := Bill])
    ensures var r2 := WorkerRun(StatusStored(StatusRecord(1, 1, Some(now1), Some(7))), table1, NoFailedFile, ["A", "B"],
                                Quiet, AlwaysFetched, now2);
      && r2.fetched == [1] && r2.halt == NotHalted
      && r2.output == map["A" := Bill, "B" := Bill]
      && r2.status == StatusRecord(2, 2, Some(now1), Some(7))
  {
    var cids := ["A", "B"];
    ReloadFlattened(table1, map["A" := Bill]);
    assert "2024-01" in Bill;
    assert WithHistory(map["A" := Bill]) == map["A" := Bill];
    var k0 := Begin(StatusStored(StatusRecord(1, 1, Some(now1), Some(7))), table1, NoFailedFile, now2);
    assert k0 == Job(map["A" := Bill], {}, 1, 0, StatusRecord(1, 1, Some(now1), Some(7)), None, NoFailedFile, [], NotHalted);
    var k1 := Step(k0, cids, 1, Quiet, AlwaysFetched);
    assert RetryResult(AlwaysFetched, "B") == Scraped(Bill);
    assert k1 == Job(map["A" := Bill, "B" := Bill], {}, 2, 0, StatusRecord(2, 2, Some(now1), Some(7)), None, NoFailedFile, [1], NotHalted);
    assert RunFrom(k0, cids, 1, Quiet, AlwaysFetched) == k1;
  }

  /** What the program as written holds for A after reloading the workbook the stopped run
      above saved: the column names of the row instead of its month, so the resumed run's next
      save writes A's rows as "Month" and "Amount". */
  lemma ResumedAsWritten(table1: seq<Row>)
    requires Flattens(table1, map["A" := Bill])
    ensures Reload(table1) == map["A" := Bill]
    ensures ReloadAsWritten(table1) == map["A" := map["Month" := Text("2024-01"), "Amount" := Number(120.5)]]
  {
    var row := Row("A", "2024-01", 120.5);
    var m := map["A" := Bill];
    assert "A" in m && "2024-01" in m["A"] && m["A"]["2024-01"] == 120.5;
    assert Row("A", "2024-01", m["A"]["2024-01"]) in table1;
    ReloadFlattened(table1, m);
    assert WithHistory(m) == m;
    ReloadAsWrittenOfOneRow(table1, row);
  }

  /** Rows that all repeat one row reload, as written, to that row's column names and values. */
  lemma {:induction false} ReloadAsWrittenOfOneRow(rows: seq<Row>, row: Row)
    requires |rows| > 0 && forall k :: 0 <= k < |rows| ==> rows[k] == row
    ensures ReloadAsWritten(rows) == map[row.cid := map["Month" := Text(row.month), "Amount" := Number(row.amount)]]
  {
    var inner := map["Month" := Text(row.month), "Amount" := Number(row.amount)];
    assert rows[|rows| - 1] == row;
    if |rows| > 1 {
      ReloadAsWrittenOfOneRow(rows[..|rows| - 1], row);
      assert inner["Month" := Text(row.month)]["Amount" := Number(row.amount)] == inner;
    } else {
      assert rows[..0] == [];
    }
  }

  /** A resumed run whose remaining CIDs were all done already fetches nothing, so the stored
      `last_processed` stays short of the list length even though the list is complete. */
  lemma SkippedTailLeavesCheckpointShort(now: Timestamp)
    ensures var r := WorkerRun(StatusStored(StatusRecord(1, 1, Some(0), Some(0))), [Row("A", "2024-01", 120.5), Row("B", "2024-01", 120.5)],
                               NoFailedFile, ["A", "B"], Quiet, AlwaysFetched, now);
      && r.halt == NotHalted && r.fetched == [] && r.status.lastProcessed == 1
  {
    var table := [Row("A", "2024-01", 120.5), Row("B", "2024-01", 120.5)];
    var cids := ["A", "B"];
    var j0 := Begin(StatusStored(StatusRecord(1, 1, Some(0), Some(0))), table, NoFailedFile, now);
    assert "B" in Reload(table);
    assert Step(j0, cids, 1, Quiet, AlwaysFetched) == j0;
  }
}

=== FILE: store.dfy ===
/** The durable stores behind `save_data` and `load_existing_data`: the output workbook (one
    row per CID and billing month) and the JSON list of failed CIDs. */
module Store {
  import opened Common
  import opened Progress

  /** One output-workbook row: columns CID, Month, Amount. */
  datatype Row = Row(cid: Cid, month: Month, amount: Amount)

  /** Every row of `rows` carries a (CID, month) pair of `m` and its amount. */
  ghost predicate RowsAgree(rows: seq<Row>, m: map<Cid, Months>)
  {
    forall k :: 0 <= k < |rows| ==> rows[k].cid in m && rows[k].month in m[rows[k].cid] && rows[k].amount == m[rows[k].cid][rows[k].month]
  }

  /** Every (CID, month) pair of `m` whose CID is in `cids` has its row in `rows`. */
  ghost predicate Covers(rows: seq<Row>, m: map<Cid, Months>, cids: set<Cid>)
  {
    forall c, mo :: c in cids && c in m && mo in m[c] ==> Row(c, mo, m[c][mo]) in rows
  }

  /** No (CID, month) pair has two rows. */
  ghost predicate DistinctPairs(rows: seq<Row>)
  {
    forall i, j :: 0 <= i < j < |rows| ==> rows[i].cid != rows[j].cid || rows[i].month != rows[j].month
  }

  /** `rows` is a flattening of `m`: a row for every (CID, month) pair of `m` carrying its
      amount, nothing else, and no pair twice. */
  ghost predicate Flattens(rows: seq<Row>, m: map<Cid, Months>)
  {
    RowsAgree(rows, m) && Covers(rows, m, m.Keys) && DistinctPairs(rows)
  }

  ghost function PickCid(cids: set<Cid>): (c: Cid)
    requires cids != {}
    ensures c in cids
  {
    var c :| c in cids; c
  }

  /** The number of (CID, month) pairs of `m` over the CIDs `cids`: the sum of their inner maps' sizes. */
  ghost function TotalOver(m: map<Cid, Months>, cids: set<Cid>): nat
    requires cids <= m.Keys
    decreases cids
  {
    if cids == {} then 0
    else
      var c := PickCid(cids);
      |m[c]| + TotalOver(m, cids - {c})
  }

  /** The number of (CID, month) pairs of `m`. */
  ghost function TotalEntries(m: map<Cid, Months>): nat
  {
    TotalOver(m, m.Keys)
  }

  /** The sum does not depend on the order in which CIDs are taken out. */
  lemma {:induction false} TotalOverRemove(m: map<Cid, Months>, cids: set<Cid>, c: Cid)
    requires cids <= m.Keys && c in cids
    ensures TotalOver(m, cids) == |m[c]| + TotalOver(m, cids - {c})
    decreases cids
  {
    var p := PickCid(cids);
    if p != c {
      TotalOverRemove(m, cids - {p}, c);
      TotalOverRemove(m, cids - {c}, p);
      assert cids - {p} - {c} == cids - {c} - {p};
    }
  }

  /** The inner loop of `save_data`: one row per month of `cid`, appended to `rows`. */
  method AppendHistory(rows: seq<Row>, cid: Cid, months: Months) returns (out: seq<Row>)
    requires DistinctPairs(rows)
    requires forall k :: 0 <= k < |rows| ==> rows[k].cid != cid
    ensures |out| == |rows| + |months| && out[..|rows|] == rows
    ensures DistinctPairs(out)
    ensures forall k :: |rows| <= k < |out| ==> out[k].cid == cid && out[k].month in months && out[k].amount == months[out[k].month]
    ensures forall mo :: mo in months ==> Row(cid, mo, months[mo]) in out
  {
    out := rows;
    var todo := months.Keys;
    while todo != {}
      invariant todo <= months.Keys
      invariant |rows| <= |out| && out[..|rows|] == rows
      invariant forall k :: |rows| <= k < |out| ==> out[k].cid == cid && out[k].month in months && out[k].month !in todo && out[k].amount == months[out[k].month]
      invariant forall mo :: mo in months && mo !in todo ==> Row(cid, mo, months[mo]) in out
      invariant DistinctPairs(out)
      invariant |out| + |todo| == |rows| + |months|
      decreases todo
    {
      var month :| month in todo;
      var row := Row(cid, month, months[month]);
      forall k | 0 <= k < |out| ensures out[k].cid != cid || out[k].month != month {
        if k < |rows| {
          assert out[k] == rows[k];
        }
      }
      DistinctPairsSnoc(out, row);
      out := out + [row];
      todo := todo - {month};
    }
  }

  lemma DistinctPairsSnoc(rows: seq<Row>, row: Row)
    requires DistinctPairs(rows)
    requires forall k :: 0 <= k < |rows| ==> rows[k].cid != row.cid || rows[k].month != row.month
    ensures DistinctPairs(rows + [row])
  {
    var out := rows + [row];
    forall i, j | 0 <= i < j < |out| ensures out[i].cid != out[j].cid || out[i].month != out[j].month {
      if j < |rows| {
        assert out[i] == rows[i] && out[j] == rows[j];
      } else {
        assert out[i] == rows[i] && out[j] == row;
      }
    }
  }

  /** The nested loops of `save_data` that build `data_list`: one row per (CID, month). */
  method FlattenRows(m: map<Cid, Months>) returns (rows: seq<Row>)
    ensures Flattens(rows, m)
    ensures |rows| == TotalEntries(m)
  {
    rows := [];
    var pending := m.Keys;
    while pending != {}
      invariant pending <= m.Keys
      invariant RowsAgree(rows, m)
      invariant forall k :: 0 <= k < |rows| ==> rows[k].cid !in pending
      invariant Covers(rows, m, m.Keys - pending)
      invariant DistinctPairs(rows)
      invariant |rows| == TotalOver(m, m.Keys - pending)
      decreases pending
    {
      var cid :| cid in pending;
      var out := AppendHistory(rows, cid, m[cid]);
      FlattenStep(m, rows, out, pending, cid);
      rows := out;
      pending := pending - {cid};
    }
    assert m.Keys - {} == m.Keys;
  }

  /** One turn of the outer loop keeps its invariants. */
  lemma FlattenStep(m: map<Cid, Months>, rows: seq<Row>, out: seq<Row>, pending: set<Cid>, cid: Cid)
    requires pending <= m.Keys && cid in pending
    requires RowsAgree(rows, m) && Covers(rows, m, m.Keys - pending)
    requires forall k :: 0 <= k < |rows| ==> rows[k].cid !in pending
    requires |rows| == TotalOver(m, m.Keys - pending)
    requires |out| == |rows| + |m[cid]| && out[..|rows|] == rows
    requires forall k :: |rows| <= k < |out| ==> out[k].cid == cid && out[k].month in m[cid] && out[k].amount == m[cid][out[k].month]
    requires forall mo :: mo in m[cid] ==> Row(cid, mo, m[cid][mo]) in out
    ensures RowsAgree(out, m) && Covers(out, m, m.Keys - (pending - {cid}))
    ensures forall k :: 0 <= k < |out| ==> out[k].cid !in pending - {cid}
    ensures |out| == TotalOver(m, m.Keys - (pending - {cid}))
  {
    forall k | 0 <= k < |out|
      ensures out[k].cid in m && out[k].month in m[out[k].cid] && out[k].amount == m[out[k].cid][out[k].month]
      ensures out[k].cid !in pending - {cid}
    {
      if k < |rows| {
        assert out[k] == out[..|rows|][k] == rows[k];
      }
    }
    FlattenStepCovers(m, rows, out, pending, cid);
    var done := m.Keys - pending;
    assert m.Keys - (pending - {cid}) == done + {cid};
    TotalOverRemove(m, done + {cid}, cid);
    assert done + {cid} - {cid} == done;
  }

  /** The pairs covered before the turn stay covered, and the turn's CID is covered too. */
  lemma FlattenStepCovers(m: map<Cid, Months>, rows: seq<Row>, out: seq<Row>, pending: set<Cid>, cid: Cid)
    requires Covers(rows, m, m.Keys - pending)
    requires |rows| <= |out| && out[..|rows|] == rows
    requires cid in m
    requires forall mo :: mo in m[cid] ==> Row(cid, mo, m[cid][mo]) in out
    ensures Covers(out, m, m.Keys - (pending - {cid}))
  {
    forall c, mo | c in m.Keys - (pending - {cid}) && mo in m[c] ensures Row(c, mo, m[c][mo]) in out {
      if c != cid {
        var k :| 0 <= k < |rows| && rows[k] == Row(c, mo, m[c][mo]);
        assert out[..|rows|][k] == rows[k];
      }
    }
  }

  /** What the failed-CID JSON file holds when it is read. */
  datatype FailedFile =
    | NoFailedFile
    | EmptyFailedFile
    | UnreadableFailedFile
    | FailedList(ids: set<Cid>)

  /** Reading the failed list: a missing, empty or unreadable file reads as no CIDs. */
  function LoadFailed(f: FailedFile): (ids: set<Cid>)
    ensures f.FailedList? ==> ids == f.ids
    ensures !f.FailedList? ==> ids == {}
  {
    if f.FailedList? then f.ids else {}
  }

  /** The failed file after one flush of `notScraped`: untouched when the set is empty,
      otherwise overwritten with the union of the set and whatever the file held readably. */
  function MergeFailed(notScraped: set<Cid>, f: FailedFile): (r: FailedFile)
    ensures notScraped == {} ==> r == f
    ensures notScraped != {} ==> r.FailedList? && r.ids == notScraped + LoadFailed(f)
  {
    if notScraped == {} then f else FailedList(notScraped + LoadFailed(f))
  }

  /** The failed file after a sequence of flushes, oldest first. */
  function MergeAll(batches: seq<set<Cid>>, f: FailedFile): (r: FailedFile)
    ensures r == f || r.FailedList?
  {
    if batches == [] then f else MergeAll(batches[1..], MergeFailed(batches[0], f))
  }

  /** Failures are never forgotten: over any sequence of flushes, the file ends up holding every
      CID it held readably before and every CID of a non-empty flushed set. */
  lemma {:induction false} FailuresArePermanent(batches: seq<set<Cid>>, f: FailedFile)
    ensures f.FailedList? ==> MergeAll(batches, f).FailedList? && f.ids <= MergeAll(batches, f).ids
    ensures forall k :: 0 <= k < |batches| && batches[k] != {} ==>
              MergeAll(batches, f).FailedList? && batches[k] <= MergeAll(batches, f).ids
  {
    if batches != [] {
      var g := MergeFailed(batches[0], f);
      FailuresArePermanent(batches[1..], g);
      forall k | 0 < k < |batches| && batches[k] != {}
        ensures batches[k] <= MergeAll(batches, f).ids
      {
        assert batches[k] == batches[1..][k - 1];
      }
    }
  }

  /** An unreadable failed file is overwritten by the next non-empty flush: what it held is lost. */
  lemma UnreadableFailedFileIsReplaced(notScraped: set<Cid>)
    requires notScraped != {}
    ensures MergeFailed(notScraped, UnreadableFailedFile) == FailedList(notScraped)
  {
  }

  /** Reading the output workbook back into CID -> month -> amount, grouping rows by CID; a
      later row for the same pair wins. */
  function Reload(rows: seq<Row>): (m: map<Cid, Months>)
    ensures m.Keys == CidsOf(rows)
  {
    if rows == [] then map[]
    else
      var init := Reload(rows[..|rows| - 1]);
      var r := rows[|rows| - 1];
      assert rows == rows[..|rows| - 1] + [r];
      assert CidsOf(rows) == CidsOf(rows[..|rows| - 1]) + {r.cid};
      init[r.cid := (if r.cid in init then init[r.cid] else map[])[r.month := r.amount]]
  }

  /** The CIDs that have a row. */
  function CidsOf(rows: seq<Row>): set<Cid>
  {
    set r | r in rows :: r.cid
  }

  /** The months that have a row for `c`. */
  function MonthsOf(rows: seq<Row>, c: Cid): set<Month>
  {
    set r | r in rows && r.cid == c :: r.month
  }

  /** Row `i` is the last row for its (CID, month) pair. */
  ghost predicate LastForPair(rows: seq<Row>, i: int)
  {
    0 <= i < |rows| &&
    forall j :: i < j < |rows| ==> rows[j].cid != rows[i].cid || rows[j].month != rows[i].month
  }

  /** The reloaded CIDs are the CIDs that have a row, each mapping the months that have a row. */
  lemma {:induction false} ReloadDomains(rows: seq<Row>)
    ensures Reload(rows).Keys == CidsOf(rows)
    ensures forall c :: c in Reload(rows) ==> Reload(rows)[c].Keys == MonthsOf(rows, c)
  {
    if rows != [] {
      var init := rows[..|rows| - 1];
      var last := rows[|rows| - 1];
      ReloadDomains(init);
      forall c ensures MonthsOf(rows, c) == MonthsOf(init, c) + (if c == last.cid then {last.month} else {}) {
        MonthsOfSnoc(rows, c);
      }
    }
  }

  /** Appending a row adds its month to its CID's months and changes no other CID's. */
  lemma MonthsOfSnoc(rows: seq<Row>, c: Cid)
    requires rows != []
    ensures var last := rows[|rows| - 1];
      MonthsOf(rows, c) == MonthsOf(rows[..|rows| - 1], c) + (if c == last.cid then {last.month} else {})
  {
    assert rows == rows[..|rows| - 1] + [rows[|rows| - 1]];
  }

  /** The reloaded amount of a pair is that of its last row. */
  lemma {:induction false} ReloadLastRowWins(rows: seq<Row>, i: int)
    requires LastForPair(rows, i)
    ensures rows[i].cid in Reload(rows) && rows[i].month in Reload(rows)[rows[i].cid]
    ensures Reload(rows)[rows[i].cid][rows[i].month] == rows[i].amount
  {
    var n := |rows| - 1;
    var init := rows[..n];
    if i < n {
      assert LastForPair(init, i);
      ReloadLastRowWins(init, i);
    }
  }

  /** The CIDs of `m` with at least one month: the only ones a flush leaves a trace of. */
  function WithHistory(m: map<Cid, Months>): (h: map<Cid, Months>)
    ensures forall c :: c in h <==> c in m && m[c] != map[]
    ensures forall c :: c in h ==> h[c] == m[c]
  {
    map c | c in m && m[c] != map[] :: m[c]
  }

  /** Round trip of the output workbook: reading back rows that agree with `m` and cover it
      restores `m`, except that a CID scraped with an empty history leaves no row and so is
      not restored. */
  lemma ReloadFlattened(rows: seq<Row>, m: map<Cid, Months>)
    requires RowsAgree(rows, m) && Covers(rows, m, m.Keys)
    ensures Reload(rows) == WithHistory(m)
  {
    ReloadDomains(rows);
    var R := Reload(rows);
    var H := WithHistory(m);
    forall c | c in R ensures c in H {
      var r :| r in rows && r.cid == c;
      var k :| 0 <= k < |rows| && rows[k] == r;
    }
    forall c | c in H ensures c in R && R[c] == H[c] {
      ReloadedHistory(rows, m, c);
    }
    assert R == H;
  }

  /** A CID of `m` with at least one month reloads to exactly its months and amounts. */
  lemma ReloadedHistory(rows: seq<Row>, m: map<Cid, Months>, c: Cid)
    requires RowsAgree(rows, m) && Covers(rows, m, m.Keys)
    requires c in m && m[c] != map[]
    ensures c in Reload(rows) && Reload(rows)[c] == m[c]
  {
    ReloadDomains(rows);
    var R := Reload(rows);
    var mo :| mo in m[c];
    assert Row(c, mo, m[c][mo]) in rows;
    forall mo' | mo' in m[c] ensures mo' in R[c] && R[c][mo'] == m[c][mo'] {
      ReloadedAmount(rows, m, c, mo');
    }
    forall mo' | mo' in R[c] ensures mo' in m[c] {
      var r :| r in rows && r.cid == c && r.month == mo';
      var k :| 0 <= k < |rows| && rows[k] == r;
    }
    assert R[c] == m[c];
  }

  /** A (CID, month) pair of `m` reloads to its amount in `m`. */
  lemma ReloadedAmount(rows: seq<Row>, m: map<Cid, Months>, c: Cid, mo: Month)
    requires RowsAgree(rows, m) && Covers(rows, m, m.Keys)
    requires c in m && mo in m[c]
    ensures c in Reload(rows) && mo in Reload(rows)[c] && Reload(rows)[c][mo] == m[c][mo]
  {
    assert Row(c, mo, m[c][mo]) in rows;
    var i :| 0 <= i < |rows| && rows[i] == Row(c, mo, m[c][mo]);
    var k := LastIndexOfPair(rows, i);
    ReloadLastRowWins(rows, k);
  }

  /** The last row at or after `i` that has row `i`'s pair. */
  lemma {:induction false} LastIndexOfPair(rows: seq<Row>, i: int) returns (k: int)
    requires 0 <= i < |rows|
    ensures i <= k && LastForPair(rows, k)
    ensures rows[k].cid == rows[i].cid && rows[k].month == rows[i].month
    decreases |rows| - i
  {
    if j :| i < j < |rows| && rows[j].cid == rows[i].cid && rows[j].month == rows[i].month {
      k := LastIndexOfPair(rows, j);
    } else {
      k := i;
    }
  }

  /** A spreadsheet cell as the reload loop reads it back. */
  datatype Cell = Text(text: string) | Number(number: Amount)

  /** The reload as the program writes it: every column other than CID is taken for a month,
      so each row overwrites its CID's "Month" and "Amount" entries. */
  function ReloadAsWritten(rows: seq<Row>): (m: map<Cid, map<string, Cell>>)
    ensures m.Keys == CidsOf(rows)
  {
    if rows == [] then map[]
    else
      var init := ReloadAsWritten(rows[..|rows| - 1]);
      var r := rows[|rows| - 1];
      assert rows == rows[..|rows| - 1] + [r];
      assert CidsOf(rows) == CidsOf(rows[..|rows| - 1]) + {r.cid};
      init[r.cid := (if r.cid in init then init[r.cid] else map[])["Month" := Text(r.month)]["Amount" := Number(r.amount)]]
  }

  /** The reload as written and the corrected one find the same CIDs; they differ only in what
      each CID maps. */
  lemma ReloadAsWrittenSameKeys(rows: seq<Row>)
    ensures ReloadAsWritten(rows).Keys == Reload(rows).Keys
  {
  }

  /** As written, every reloaded CID maps exactly the two column names, never its months. */
  lemma {:induction false} ReloadAsWrittenKeys(rows: seq<Row>)
    ensures forall c :: c in ReloadAsWritten(rows) ==> ReloadAsWritten(rows)[c].Keys == {"Month", "Amount"}
  {
    if rows != [] {
      ReloadAsWrittenKeys(rows[..|rows| - 1]);
    }
  }

  /** A CID with two billing months, flushed and read back as written: January's amount is
      lost and the months have become the column names. */
  lemma ReloadAsWrittenLosesMonths()
    ensures Flattens([Row("A", "Jan", 1.0), Row("A", "Feb", 2.0)], map["A" := map["Jan" := 1.0, "Feb" := 2.0]])
    ensures ReloadAsWritten([Row("A", "Jan", 1.0), Row("A", "Feb", 2.0)])["A"]
            == map["Month" := Text("Feb"), "Amount" := Number(2.0)]
  {
  }

  /** The files the worker reads and writes. */
  class Disk {
    var statusFile: StatusFile
    var table: seq<Row>
    var failedFile: FailedFile

    constructor (statusFile: StatusFile, table: seq<Row>, failedFile: FailedFile)
      ensures this.statusFile == statusFile && this.table == table && this.failedFile == failedFile
    {
      this.statusFile := statusFile;
      this.table := table;
      this.failedFile := failedFile;
    }

    /** `save_status`: overwrite the status file with the record. */
    method SaveStatus(rec: StatusRecord)
      modifies this`statusFile
      ensures statusFile == StatusStored(rec)
    {
      statusFile := StatusStored(rec);
    }

    /** `save_data`: rewrite the workbook from the whole in-memory map and, when there are
        failures, write their union with the readable on-disk list. */
    method SaveData(output: map<Cid, Months>, notScraped: set<Cid>)
      modifies this`table, this`failedFile
      ensures Flattens(table, output) && |table| == TotalEntries(output)
      ensures failedFile == MergeFailed(notScraped, old(failedFile))
    {
      var rows := FlattenRows(output);
      table := rows;
      if notScraped != {} {
        var ids := notScraped;
        if failedFile.FailedList? {
          ids := ids + failedFile.ids;
        }
        failedFile := FailedList(ids);
      }
    }
  }
}

=== FILE: worker.dfy ===
/** `scraping_worker`: the resumable loop over the CID list, in the program's own imperative
    form, proved to end in the state that `Runner.WorkerRun` describes. */
module Worker {
  import opened Common
  import opened Progress
  import opened Retry
  import opened Pause
  import opened Store
  import opened Runner
  import Control

  /** How the worker ends: the browser could not be started, the input workbook could not be
      read (both logged, nothing written), or the loop ran and ended as `halt` says. */
  datatype WorkerOutcome = BrowserFailed | InputUnreadable | Finished(halt: Halt)

  /** `scraping_worker`: start the browser, read the CID list, reload the output workbook, the
      failed list and the status record, stamp the start time on a first run, run the loop,
      and save once more unless the worker is left waiting in the pause. Whatever it ends with
      on disk and in the flags is what `Runner.WorkerRun` computes from the files it read. */
  method ScrapingWorker(disk: Disk, ctl: Control.ControlSurface, browserStarts: bool, input: Option<seq<Cid>>,
                        env: Environment, fetch: Fetcher, now: Timestamp) returns (outcome: WorkerOutcome)
    modifies disk, ctl
    ensures outcome.Finished? <==> browserStarts && input.Some?
    ensures !browserStarts ==> outcome == BrowserFailed
    ensures !outcome.Finished? ==> unchanged(disk) && unchanged(ctl)
    ensures outcome.Finished? ==>
      var j := WorkerRun(old(disk.statusFile), old(disk.table), old(disk.failedFile), input.value, env, fetch, now);
      && outcome.halt == j.halt
      && disk.statusFile == StatusStored(j.status)
      && disk.failedFile == j.failedFile
      && (j.flushed.Some? ==> Flattens(disk.table, j.flushed.value))
      && (j.flushed.None? ==> disk.table == old(disk.table))
      && ctl.paused == old(ctl.paused) && ctl.thread == old(ctl.thread)
      && ctl.stopping == (old(ctl.stopping) || j.halt.StopInPause?)
  {
    if !browserStarts {
      return BrowserFailed;
    }
    if input.None? {
      return InputUnreadable;
    }
    var cids := input.value;

    // load_existing_data, load_status
    var output := Reload(disk.table);
    var notScraped := LoadFailed(disk.failedFile);
    var status := LoadStatus(disk.statusFile);

    var successCount: nat := status.totalProcessed;
    var failedCount: nat := |notScraped|;
    var startIndex: nat := status.lastProcessed;

    if status.startTime.None? {
      status := status.(startTime := Some(now));
      disk.SaveStatus(status);
    }

    var halt;
    ghost var flushed, fetched;
    output, notScraped, successCount, failedCount, status, halt, flushed, fetched :=
      RunLoop(disk, ctl, cids, startIndex, env, fetch, output, notScraped, successCount, failedCount, status);

    // final save
    if !halt.BlockedInPause? {
      disk.SaveData(output, notScraped);
      flushed := Some(output);
    }
    return Finished(halt);
  }

  /** The `for` loop from `startIndex`, ending at the end of the list or at the first turn that
      halts; exactly `Runner.RunFrom` from the loaded state. */
  method RunLoop(disk: Disk, ctl: Control.ControlSurface, cids: seq<Cid>, startIndex: nat, env: Environment, fetch: Fetcher,
                 output0: map<Cid, Months>, notScraped0: set<Cid>, successCount0: nat, failedCount0: nat, status0: StatusRecord)
    returns (output: map<Cid, Months>, notScraped: set<Cid>, successCount: nat, failedCount: nat, status: StatusRecord,
             halt: Halt, ghost flushed: Option<map<Cid, Months>>, ghost fetched: seq<nat>)
    requires disk.statusFile == StatusStored(status0)
    modifies disk, ctl
    ensures Job(output, notScraped, successCount, failedCount, status, flushed, disk.failedFile, fetched, halt)
         == RunFrom(Job(output0, notScraped0, successCount0, failedCount0, status0, None, old(disk.failedFile), [], NotHalted),
                    cids, startIndex, env, fetch)
    ensures disk.statusFile == StatusStored(status)
    ensures flushed.Some? ==> Flattens(disk.table, flushed.value)
    ensures flushed.None? ==> disk.table == old(disk.table)
    ensures ctl.paused == old(ctl.paused) && ctl.thread == old(ctl.thread)
    ensures ctl.stopping == (old(ctl.stopping) || halt.StopInPause?)
  {
    output, notScraped, successCount, failedCount, status := output0, notScraped0, successCount0, failedCount0, status0;
    halt, flushed, fetched := NotHalted, None, [];
    var index := startIndex;
    ghost var job0 := Job(output0, notScraped0, successCount0, failedCount0, status0, None, disk.failedFile, [], NotHalted);
    ghost var job := job0;
    while index < |cids|
      invariant startIndex <= index
      invariant halt == NotHalted
      invariant job == Job(output, notScraped, successCount, failedCount, status, flushed, disk.failedFile, fetched, NotHalted)
      invariant RunFrom(job0, cids, startIndex, env, fetch) == RunFrom(job, cids, index, env, fetch)
      invariant disk.statusFile == StatusStored(status)
      invariant flushed.Some? ==> Flattens(disk.table, flushed.value)
      invariant flushed.None? ==> disk.table == old(disk.table)
      invariant unchanged(ctl)
      decreases |cids| - index
    {
      output, notScraped, successCount, failedCount, status, halt, flushed, fetched :=
        Turn(disk, ctl, cids, index, env, fetch, output, notScraped, successCount, failedCount, status, flushed, fetched);
      ghost var next := Job(output, notScraped, successCount, failedCount, status, flushed, disk.failedFile, fetched, halt);
      RunFromTurn(job, next, cids, index, env, fetch);
      if halt != NotHalted {
        assert RunFrom(job0, cids, startIndex, env, fetch) == next;
        break;
      }
      assert RunFrom(job0, cids, startIndex, env, fetch) == RunFrom(next, cids, index + 1, env, fetch);
      job := next;
      index := index + 1;
    }
  }

  /** One turn of the loop at `index`: the stop flag, `check_pause`, the skip of a CID already
      scraped or failed, and otherwise the fetch; exactly `Runner.Step`. */
  method Turn(disk: Disk, ctl: Control.ControlSurface, cids: seq<Cid>, index: nat, env: Environment, fetch: Fetcher,
              output: map<Cid, Months>, notScraped: set<Cid>, successCount: nat, failedCount: nat, status: StatusRecord,
              ghost flushed: Option<map<Cid, Months>>, ghost fetched: seq<nat>)
    returns (output': map<Cid, Months>, notScraped': set<Cid>, successCount': nat, failedCount': nat, status': StatusRecord,
             halt: Halt, ghost flushed': Option<map<Cid, Months>>, ghost fetched': seq<nat>)
    requires index < |cids|
    requires disk.statusFile == StatusStored(status)
    requires flushed.Some? ==> Flattens(disk.table, flushed.value)
    modifies disk, ctl
    ensures Job(output', notScraped', successCount', failedCount', status', flushed', disk.failedFile, fetched', halt)
         == Step(Job(output, notScraped, successCount, failedCount, status, flushed, old(disk.failedFile), fetched, NotHalted),
                 cids, index, env, fetch)
    ensures disk.statusFile == StatusStored(status')
    ensures flushed'.Some? ==> Flattens(disk.table, flushed'.value)
    ensures flushed'.None? ==> disk.table == old(disk.table)
    ensures ctl.paused == old(ctl.paused) && ctl.thread == old(ctl.thread)
    ensures ctl.stopping == (old(ctl.stopping) || halt.StopInPause?)
    ensures halt.StopInPause? || unchanged(ctl)
  {
    output', notScraped', successCount', failedCount', status' := output, notScraped, successCount, failedCount, status;
    halt, flushed', fetched' := NotHalted, flushed, fetched;
    var s := env(index);
    if s.stop {
      halt := StopFlag(index);
      return;
    }
    var pause, _ := CheckPause(s.paused, s.polls);
    if pause == StopRequested {
      ctl.stopping := true;
      halt := StopInPause(index);
      return;
    }
    if pause == StillPaused {
      halt := BlockedInPause(index);
      return;
    }
    var cid := cids[index];
    if cid in output || cid in notScraped {
      return;
    }
    output', notScraped', successCount', failedCount', status', flushed', fetched' :=
      FetchAndRecord(disk, cids, index, s.now, fetch, output, notScraped, successCount, failedCount, status, flushed, fetched);
  }

  /** The rest of a turn once the CID at `index` is to be fetched: `process_cid`, the result
      recorded in exactly one collection with its counter, the status checkpoint, and the save
      every FlushEvery indices; together exactly `Runner.Visit`. */
  method FetchAndRecord(disk: Disk, cids: seq<Cid>, index: nat, now: Timestamp, fetch: Fetcher,
                        output: map<Cid, Months>, notScraped: set<Cid>, successCount: nat, failedCount: nat,
                        status: StatusRecord, ghost flushed: Option<map<Cid, Months>>, ghost fetched: seq<nat>)
    returns (output': map<Cid, Months>, notScraped': set<Cid>, successCount': nat, failedCount': nat,
             status': StatusRecord, ghost flushed': Option<map<Cid, Months>>, ghost fetched': seq<nat>)
    requires index < |cids|
    requires flushed.Some? ==> Flattens(disk.table, flushed.value)
    modifies disk
    ensures Job(output', notScraped', successCount', failedCount', status', flushed', disk.failedFile, fetched', NotHalted)
         == Visit(Job(output, notScraped, successCount, failedCount, status, flushed, old(disk.failedFile), fetched, NotHalted),
                  cids, index, now, fetch)
    ensures disk.statusFile == StatusStored(status')
    ensures flushed'.Some? ==> Flattens(disk.table, flushed'.value)
    ensures flushed'.None? ==> disk.table == old(disk.table)
  {
    var cid := cids[index];
    var result, _ := ProcessCid(fetch, cid);
    output', notScraped', successCount', failedCount' := RecordResult(cid, result, output, notScraped, successCount, failedCount);
    ghost var j1 := Job(output', notScraped', successCount', failedCount', status, flushed, disk.failedFile, fetched, NotHalted);
    assert j1 == Record(Job(output, notScraped, successCount, failedCount, status, flushed, disk.failedFile, fetched, NotHalted), cid, result);
    status' := Checkpoint(status, index + 1, successCount', now);
    disk.SaveStatus(status');
    fetched' := fetched + [index];
    flushed' := flushed;
    if (index + 1) % FlushEvery == 0 {
      disk.SaveData(output', notScraped');
      flushed' := Some(output');
    }
  }

  /** The `if result:` branch of the loop: a scraped map goes into `output_data` and counts as a
      success, an exhausted CID into `not_scraped` and counts as a failure. */
  method RecordResult(cid: Cid, result: FetchResult, output: map<Cid, Months>, notScraped: set<Cid>,
                      successCount: nat, failedCount: nat)
    returns (output': map<Cid, Months>, notScraped': set<Cid>, successCount': nat, failedCount': nat)
    ensures result.Scraped? ==> output' == output[cid := result.data] && successCount' == successCount + 1
                                && notScraped' == notScraped && failedCount' == failedCount
    ensures result.Exhausted? ==> notScraped' == notScraped + {cid} && failedCount' == failedCount + 1
                                  && output' == output && successCount' == successCount
  {
    output', notScraped', successCount', failedCount' := output, notScraped, successCount, failedCount;
    match result {
      case Scraped(data) =>
        output' := output[cid := data];
        successCount' := successCount + 1;
      case Exhausted(_) =>
        notScraped' := notScraped + {cid};
        failedCount' := failedCount + 1;
    }
  }
}
